=== FILE: README.md ===
# corerad: plugin engine and task builder

This project models two parts of corerad, an IPv6 Router Advertisement daemon, and proves properties of the model.

**The plugin engine.** Four plugin kinds turn configuration into Router Advertisement options:

- DNSSL gives a DNS Search List option.
- RDNSS gives a Recursive DNS Server option.
- MTU gives an MTU option.
- Prefix gives Prefix Information options.

Each plugin's `Apply` appends its options to an advertisement. A Prefix plugin configured with `::/N` is *automatic*: it asks for the interface's addresses and advertises their networks. Discovery works like this:

- It keeps only entries that are address/mask pairs, IPv6, not link-local (fe80::/10), and have a mask of exactly N bits.
- It masks each kept address to its network.
- It emits each network once, the first time it appears, in enumeration order.

An advertisement is built by folding the plugin list, in order, over a fresh advertisement. The first error stops the fold. `String` renders a one-line summary of each plugin.

**Building tasks.** `Server.BuildTasks` maps a configuration to an ordered task list:

- each interface, in configuration order, gives a monitor task when its `Monitor` flag is set and an advertiser task (carrying its plugins) when its `Advertise` flag is set;
- then comes a debug HTTP server task when the debug address is non-empty;
- then, always, the link state watcher.

`Task.String` renders `monitor "eth0"`, `advertiser "eth1"`, `debug HTTP server ":9430"` and `link state watcher`.

The modules, one per file:

- `Wrappers`: `Result`.
- `Net`: IP addresses as byte strings tagged as Go's `To4()` would tag them, `IPNet`, `net.Addr`, and masking with Go's `CIDRMask` byte rule, proved bit by bit.
- `Ndp`: the four option kinds and the advertisement.
- `Plugins`: plugins, `Apply`, discovery, the fold, and the fold loop as a method.
- `PluginText`: `String`.
- `PluginTests`: every `TestBuild` and `TestPluginString` case as a lemma, and `LoopTwoPlugins`, an illustration of the test's plugin loop.
- `Tasks`: the builder and the descriptions.
- `TaskTests`: every `TestServerBuildTasks` case as a lemma.

Go's text formatting of durations, IPs and IPNets is not re-derived. It enters as a `Formatters` value of three functions, and the string lemmas state their expected text given the formatter outputs the tests imply (`30s`, `15m0s`, `::/64`, `2001:db8::1`).

The tests do not settle every behaviour. Where they leave a choice open, the model decides as follows:

- **Automatic mode.** A Prefix plugin is automatic exactly when its configured address is `::`. The tests use `::/64` for automatic and `2001:db8::/32` for static.
- **Address callback.** The `Addrs` callback is a value: no callback, a list of addresses, or an error. An automatic plugin with no callback is modelled as the `AddrsUnset` error. That Go would call a nil function there is an inference, because the Prefix implementation is not part of this model.
- **MTU conversion.** The MTU plugin is built from a Go `int`, and its expected option is `ndp.NewMTU(1500)`, which takes a `uint32`. That the plugin converts with `uint32(...)` is an inference, because the MTU implementation is not part of this model. The model takes the low 32 bits.
- **Interface with both flags.** When one interface both monitors and advertises, the order of its two tasks is the explicit parameter `BothOrder`. No test has such an interface, so the model keeps both orders. `Tasks.BothFlagsOrder` states what each order gives, and `Tasks.OrderIrrelevant` shows that no tested configuration depends on the choice.
- **The IPv4 filter.** The model drops every non-IPv6 address, because IPv6 Router Advertisements carry only IPv6 prefixes. The test entry `192.0.2.1/24` is both IPv4 and /24, so the test alone does not separate the two reasons.

## Model

| member | source | states |
|---|---|---|
| Net.Network | internal/plugin/plugin_test.go:243-250 | masking keeps the address family, and its bytes are the address ANDed with the mask |
| Net.NetworkBits | internal/plugin/plugin_test.go:150-152 | the network address has every bit past the prefix clear and agrees with the address on every prefix bit |
| Net.NetworkIdempotent | internal/plugin/plugin_test.go:146-152 | masking an already masked address changes nothing, so `mustCIDR` networks mask to themselves |
| Net.ByteAlignedMask | internal/plugin/plugin_test.go:115-128 | for a whole-byte prefix, masking keeps the leading bytes and zeroes the rest |
| Net.ClearAddressIsNetwork | internal/plugin/plugin_test.go:159-174 | an address with no host bits set is its own network |
| Net.IsLinkLocalUnicast | internal/plugin/plugin_test.go:148 | on IPv6, Go's link-local test holds exactly when the address's /10 network is fe80::/10 |
| Net.LinkLocalBytes | internal/plugin/plugin_test.go:148 | the test on the first two bytes (`fe`, then `80` under the mask `c0`) holds exactly when the first ten bits equal those of fe80:: |
| Ndp.AppendExtends | internal/plugin/plugin_test.go:219-224 | appending options keeps the header and the existing options as a prefix, and the new tail is the appended options |
| Ndp.ExtendsTransitive | internal/plugin/plugin_test.go:219-224 | extending an extension of an advertisement extends the advertisement |
| Plugins.Eligible | internal/plugin/plugin_test.go:145-151 | an entry is kept exactly when it is an IPv6 address/mask pair with the configured mask length whose /10 network is not fe80::/10 |
| Plugins.Candidates | internal/plugin/plugin_test.go:143-153 | filtering and masking give at most one network per enumerated entry |
| Plugins.CandidatesMembers | internal/plugin/plugin_test.go:143-153 | a network is a candidate exactly when it is the network of some eligible enumerated address |
| Plugins.CandidatesConcat | internal/plugin/plugin_test.go:143-153 | candidates of concatenated address lists are the concatenated candidates, so enumeration order is kept |
| Plugins.IneligibleIgnored | internal/plugin/plugin_test.go:145-149 | an entry that is not eligible contributes no candidate |
| Plugins.CandidateNetworks | internal/plugin/plugin_test.go:150-152 | every candidate is an IPv6 network with all host bits clear |
| Plugins.FirstSeen | internal/plugin/plugin_test.go:150-151 | de-duplication never lengthens the list and emits only values from it |
| Plugins.FirstSeenMembers | internal/plugin/plugin_test.go:150-151 | de-duplication emits no value twice, and emits exactly the values not already seen |
| Plugins.FirstIndex | internal/plugin/plugin_test.go:150-152 | the first position of a value holds it, and no earlier position does |
| Plugins.FirstSeenOrder | internal/plugin/plugin_test.go:157-176 | de-duplication keeps values in the order of their first occurrences |
| Plugins.AutoPrefixes | internal/plugin/plugin_test.go:143-176 | discovery gives at most one network per entry, and each is a candidate network |
| Plugins.AutoPrefixesSpec | internal/plugin/plugin_test.go:143-176 | discovery emits each network of an eligible address exactly once and nothing else, as clean IPv6 networks, in first-seen order |
| Plugins.IsAutomatic | internal/plugin/plugin_test.go:136-137 | a Prefix plugin is automatic exactly when its configured address is the IPv6 all-zero address `::`, and then its configured network has no host bits set |
| Plugins.UnspecifiedIsNetwork | internal/plugin/plugin_test.go:137 | `::` has every host bit clear under any mask length |
| Plugins.PrefixOption | internal/plugin/plugin_test.go:159-174 | a Prefix plugin's option is a Prefix Information option for the given network |
| Plugins.Uint32 | internal/plugin/plugin_test.go:181-185 | the uint32 conversion is the identity in range and otherwise congruent modulo 2^32 |
| Plugins.Apply | internal/plugin/plugin_test.go:219-224 | success only extends the advertisement, and `Apply` fails exactly for an automatic prefix whose address source does not return addresses |
| Plugins.ApplyDNSSL | internal/plugin/plugin_test.go:89-109 | DNSSL appends one DNS Search List option with the lifetime and names unchanged |
| Plugins.ApplyRDNSS | internal/plugin/plugin_test.go:189-210 | RDNSS appends one Recursive DNS Server option with the lifetime and servers unchanged |
| Plugins.ApplyMTU | internal/plugin/plugin_test.go:179-187 | an in-range MTU appends one MTU option with that value |
| Plugins.ApplyStaticPrefix | internal/plugin/plugin_test.go:112-131 | a static prefix appends one Prefix Information option with the configured length, network, flags and lifetimes |
| Plugins.AutomaticPrefix | internal/plugin/plugin_test.go:133-176 | an automatic prefix appends one option per discovered network, in order, each with the configured length, flags and lifetimes |
| Plugins.AutomaticPrefixFails | internal/plugin/plugin_test.go:143-154 | an automatic prefix whose address source fails, or is missing, reports that error |
| Plugins.Contribution | internal/plugin/plugin_test.go:214-224 | a plugin's options fail exactly for an automatic prefix whose address source does not return addresses; every other plugin contributes exactly one option, and the options are Prefix Information exactly for a Prefix plugin |
| Plugins.PrefixNetworksClear | internal/plugin/plugin_test.go:111-176 | a Prefix plugin, static or automatic, whose configured network has no host bits set appends only Prefix Information options of the configured length whose networks have no host bits set |
| Plugins.FoldAppendsContributions | internal/plugin/plugin_test.go:214-227 | the fold appends exactly the concatenated contributions in list order and keeps the header, or fails with the first error |
| Plugins.Fold | internal/plugin/plugin_test.go:214-224 | a successful fold only extends the advertisement, never removing or reordering options, and no plugins leave it unchanged |
| Plugins.FoldConcat | internal/plugin/plugin_test.go:219-224 | folding a split list is folding the second part over the result of the first |
| Plugins.FoldOrder | internal/plugin/plugin_test.go:219-224 | the options of an earlier plugin precede those of a later one |
| Plugins.FirstErrorStops | internal/plugin/plugin_test.go:220-223 | the first failing plugin's error is the fold's result, whatever follows it |
| Plugins.FoldFailsIffSomePluginFails | internal/plugin/plugin_test.go:219-224 | the fold fails exactly when some plugin fails |
| Plugins.ApplyAll | internal/plugin/plugin_test.go:216-224 | the loop that reassigns the advertisement and returns at the first error computes `Fold` |
| PluginText.Join | internal/plugin/plugin_test.go:36-38 | joining no items gives the empty text, and one item gives that item |
| PluginText.JoinConcat | internal/plugin/plugin_test.go:36-38 | joining two non-empty lists is joining each with the separator between them, so every item except the last is followed by the separator |
| PluginText.NatString | internal/plugin/plugin_test.go:52-54 | a decimal numeral is non-empty, all digits, with no leading zero |
| PluginText.NatStringRoundTrip | internal/plugin/plugin_test.go:52-54 | a natural number's numeral reads back as the number |
| PluginText.Decimal | internal/plugin/plugin_test.go:52-54 | `%d` of an integer is an optional minus sign then a non-empty digit string, and reads back as the integer |
| PluginText.PrefixFlagsRendering | internal/plugin/plugin_test.go:44-49 | the flag list shows `on-link` and `autonomous` exactly when set, in that order, inside brackets |
| PluginText.PluginString | internal/plugin/plugin_test.go:32-66 | a DNSSL summary is its bracketed names then its lifetime, and an RDNSS summary its bracketed formatted servers then its lifetime; an MTU summary is `MTU: ` then a numeral that reads back as the value; a Prefix summary starts with its formatted prefix, its bracketed flags and its preferred lifetime, and ends in `valid: infinite` for an `ndp.Infinity` valid lifetime and otherwise in the formatted valid lifetime |
| PluginText.ServerStrings | internal/plugin/plugin_test.go:59-65 | the shown servers are the formatted servers, one per server, in order |
| PluginText.JoinTwo | internal/plugin/plugin_test.go:36-38 | two items join around the separator |
| PluginTests.Cidr | internal/plugin/plugin_test.go:243-250 | `mustCIDR` gives the network of the written address: the written mask length and family, the address masked to that length, and no host bit set |
| PluginTests.UnspecifiedSlash64 | internal/plugin/plugin_test.go:137 | `::/64` parses to `::` with 64 mask bits |
| PluginTests.TestBuildNoConfig | internal/plugin/plugin_test.go:84-87 | no plugins leave a fresh advertisement with no options |
| PluginTests.TestBuildDNSSL | internal/plugin/plugin_test.go:88-110 | the "DNSSL" case gives its expected advertisement |
| PluginTests.TestBuildStaticPrefix | internal/plugin/plugin_test.go:111-132 | the "static prefix" case gives its expected advertisement, with autonomous false |
| PluginTests.IgnoredAddresses | internal/plugin/plugin_test.go:145-149 | the four entries meant to be ignored are not eligible |
| PluginTests.KeptNetworks | internal/plugin/plugin_test.go:150-152 | the /64 networks of the kept addresses are 2001:db8:: and fd00:: |
| PluginTests.KeptAddresses | internal/plugin/plugin_test.go:143-153 | the candidates of the test's addresses are 2001:db8::, 2001:db8:: and fd00:: |
| PluginTests.AutomaticScenarioNetworks | internal/plugin/plugin_test.go:157-176 | discovery over the test's addresses emits 2001:db8:: once, then fd00:: |
| PluginTests.AutomaticFold | internal/plugin/plugin_test.go:133-176 | the automatic plugin over those networks gives the two expected options |
| PluginTests.TestBuildAutomaticPrefixes | internal/plugin/plugin_test.go:133-177 | the "automatic prefixes" case gives its expected advertisement |
| PluginTests.TestBuildMTU | internal/plugin/plugin_test.go:178-188 | the "MTU" case gives its expected advertisement |
| PluginTests.TestBuildRDNSS | internal/plugin/plugin_test.go:189-211 | the "RDNSS" case gives its expected advertisement |
| PluginTests.LoopTwoPlugins | internal/plugin/plugin_test.go:219-224 | an illustration, not a test case: the loop over an MTU then a DNSSL plugin gives both options, in that order |
| PluginTests.TestPluginStringDNSSL | internal/plugin/plugin_test.go:32-39 | the DNSSL summary is the test's text |
| PluginTests.TestPluginStringPrefix | internal/plugin/plugin_test.go:40-50 | the Prefix summary is the test's text |
| PluginTests.TestPluginStringMTU | internal/plugin/plugin_test.go:51-55 | the MTU summary is `MTU: 1500` |
| PluginTests.TestPluginStringRDNSS | internal/plugin/plugin_test.go:56-66 | the RDNSS summary is the test's text |
| Tasks.InterfaceTasksOf | internal/corerad/server_test.go:61-74 | an interface gives one task per set flag: a monitor for `Monitor`, an advertiser with its plugins for `Advertise` |
| Tasks.InterfaceTasks | internal/corerad/server_test.go:58-75 | interface tasks are only monitors and advertisers, one per monitor flag and one per advertise flag |
| Tasks.BuildTasks | internal/corerad/server_test.go:44-75 | the list starts with the interface tasks, in configuration order; the watcher is last and unique; and the debug server is present exactly when it has an address, once, right before the watcher |
| Tasks.InterfaceTasksConcat | internal/corerad/server_test.go:61-74 | interfaces are processed in configuration order |
| Tasks.TaskCount | internal/corerad/server_test.go:44-75 | the number of tasks is monitors plus advertisers, plus one for a debug address, plus one for the watcher |
| Tasks.MonitorTaskIff | internal/corerad/server_test.go:62-70 | a monitor task for a name exists exactly when some interface of that name monitors |
| Tasks.AdvertiserTaskIff | internal/corerad/server_test.go:63-71 | an advertiser task exists exactly when some interface of that name and those plugins advertises |
| Tasks.BuildTasksInterfaces | internal/corerad/server_test.go:58-75 | the built list's monitors and advertisers are exactly those the interfaces ask for |
| Tasks.IdleInterfaceIgnored | internal/corerad/server_test.go:64-65 | an interface with neither flag contributes no task, wherever it is |
| Tasks.InterfaceOrder | internal/corerad/server_test.go:61-74 | each interface's tasks sit between those of earlier and later interfaces |
| Tasks.BothFlagsOrder | internal/corerad/server_test.go:61-63 | with both flags, the order parameter decides which task comes first |
| Tasks.OrderIrrelevant | internal/corerad/server_test.go:61-74 | when no interface has both flags, the order parameter does not matter |
| Tasks.Quote | internal/corerad/server_test.go:70-72 | a quoted text is the text between two double quotes |
| Tasks.TaskString | internal/corerad/server_test.go:69-74 | a description reads back as its task's kind and quoted name or address, so tasks that differ in kind or in quoted name or address get different descriptions |
| Tasks.TaskStrings | internal/corerad/server_test.go:82-85 | the description list has one entry per task, each that task's description |
| Tasks.QuotedAfterQuote | internal/corerad/server_test.go:70-72 | a prefix then a quoted text reads back as that text |
| TaskTests.EmptyConfig | internal/corerad/server_test.go:44-47 | an empty configuration gives only `link state watcher` |
| TaskTests.DebugHTTP | internal/corerad/server_test.go:48-57 | a debug address gives the debug server then the watcher |
| TaskTests.FullTasks | internal/corerad/server_test.go:58-68 | the full configuration builds monitor eth0, advertiser eth1, the debug server and the watcher |
| TaskTests.Full | internal/corerad/server_test.go:58-75 | the full configuration gives monitor eth0, advertiser eth1, the debug server and the watcher, in that order |

## Left out

- `Server.Serve` and the running of tasks (HTTP serving, link watching, monitoring, advertising loops): concurrency and I/O. Tasks are modelled only as the values the builder returns.
- The `httpGet` and `randAddr` test helpers: network I/O with retries and sleeps.
- internal/build/build.go: linker-set version strings and thin wrappers over Go library formatting.
- Go's `time.Duration`, `net.IP` and `net.IPNet` text formatting: taken as the `Formatters` parameter instead of being re-derived.
- `net.ParseIP` and `net.ParseCIDR`: `PluginTests.Cidr` models only the masking `mustCIDR` relies on, over addresses written as bytes.
- The `ndp` library's wire encoding of options, and `go-cmp` diffing: foreign code; options are compared as values.
- The `panicf` helpers: they panic on unparsable test inputs (internal/plugin/plugin_test.go:237, :246), on a `Serve` error (internal/corerad/server_test.go:183, left out with `Serve`) and on a malformed linker-set timestamp (internal/build/build.go:37, left out with the rest of that file).
- `Plugin.Name`, used only in the fold's failure message.
- Tasks.Quote: Go's `%q` escapes special characters, the model only adds the quotes. The tested names and addresses contain nothing to escape.
- Plugins.ApplyMTU: covers only MTU values that fit in 32 bits. Other values are reduced modulo 2^32 by `Plugins.Uint32`, an inference because the conversion's code is not part of this model.
- Net.IP: the V4/V6 tag stands for Go's `To4() != nil`, so an IPv4-mapped address is `V4`. A `V6` value in ::ffff:0:0/96 stands for no Go address, and on such a value `Net.IsLinkLocalUnicast` and `Plugins.Eligible` do not follow Go, which would treat it as IPv4.
- Durations are unbounded integers: Go's 64-bit `time.Duration` overflow is not modelled.
- Masks are only the canonical prefix masks (`IPNet.ones`): a non-canonical `net.IPMask` is not modelled.
- The `Addrs` callback is a value: successive calls that return different addresses are not modelled.
- Plugins.Apply: an automatic plugin with no `Addrs` callback fails with `AddrsUnset`. In Go, calling the nil function would panic instead. That is an inference, because the Prefix implementation is not part of this model.

=== FILE: ndp.dfy ===
/**
  The Router Advertisement and the four option kinds the plugins produce, as
  values of the `ndp` library (`ndp.RouterAdvertisement`, `ndp.DNSSearchList`,
  `ndp.RecursiveDNSServer`, `ndp.MTU`, `ndp.PrefixInformation`).
*/
module Ndp {
  import opened Net

  /** A `time.Duration`: a count of nanoseconds. */
  type Duration = int

  const Second: Duration := 1_000_000_000
  const Minute: Duration := 60 * Second

  /** `ndp.Infinity`: the all-ones 32-bit lifetime, in seconds. */
  const Infinity: Duration := 0xffff_ffff * Second

  type uint32 = n: int | 0 <= n < 0x1_0000_0000

  datatype Option =
    | DNSSearchList(lifetime: Duration, domainNames: seq<string>)
    | RecursiveDNSServer(lifetime: Duration, servers: seq<IP>)
    | MTU(mtu: uint32)
    | PrefixInformation(
        prefixLength: nat,
        onLink: bool,
        autonomousAddressConfiguration: bool,
        preferredLifetime: Duration,
        validLifetime: Duration,
        prefix: IP)

  /** The header fields of an advertisement, which no plugin touches, and its options. */
  datatype RouterAdvertisement = RouterAdvertisement(
    currentHopLimit: nat,
    managedConfiguration: bool,
    otherConfiguration: bool,
    routerLifetime: Duration,
    reachableTime: Duration,
    retransmitTimer: Duration,
    options: seq<Option>)

  /** `new(ndp.RouterAdvertisement)`: every field at its zero value. */
  const Fresh: RouterAdvertisement := RouterAdvertisement(0, false, false, 0, 0, 0, [])

  /** `after` is `before` with options appended: same header, and the options
      of `before` kept, unmoved, as a prefix. */
  predicate Extends(before: RouterAdvertisement, after: RouterAdvertisement) {
    && after.(options := before.options) == before
    && |before.options| <= |after.options|
    && after.options[..|before.options|] == before.options
  }

  /** Appending options extends the advertisement by exactly those options. */
  lemma AppendExtends(ra: RouterAdvertisement, opts: seq<Option>)
    ensures Extends(ra, ra.(options := ra.options + opts))
    ensures ra.(options := ra.options + opts).options[|ra.options|..] == opts
  {
  }

  lemma {:induction false} ExtendsTransitive(a: RouterAdvertisement, b: RouterAdvertisement, c: RouterAdvertisement)
    requires Extends(a, b) && Extends(b, c)
    ensures Extends(a, c)
  {
    assert c.options[..|a.options|] == c.options[..|b.options|][..|a.options|];
  }
}

=== FILE: net.dfy ===
/**
  IP addresses, address/mask pairs and the masking operation used by the
  Prefix plugin: a model of the parts of Go's `net` package the plugin
  engine relies on (`net.IP`, `net.IPNet`, `net.Addr`, `IP.Mask`,
  `CIDRMask`, `IsLinkLocalUnicast`).
*/
module Net {

  type byte = bv8

  type V4Bytes = s: seq<byte> | |s| == 4 witness [0, 0, 0, 0]
  type V6Bytes = s: seq<byte> | |s| == 16
    witness [0, 0, 0, 0, 0, 0, 0, 0, 0, 0, 0, 0, 0, 0, 0, 0]

  /** An IP address tagged with its family: 4 bytes for IPv4, 16 for IPv6.
      The tag stands for Go's `To4() != nil`, so an IPv4-mapped address
      (`::ffff:a.b.c.d`) is written `V4`; a `V6` value inside ::ffff:0:0/96
      stands for no Go address. */
  datatype IP = V4(v4: V4Bytes) | V6(v6: V6Bytes) {

    function Bytes(): (b: seq<byte>)
      ensures |b| == if V4? then 4 else 16
    {
      if V4? then v4 else v6
    }

    /** The number of address bits: 32 or 128. */
    function BitLen(): nat {
      8 * |Bytes()|
    }
  }

  /** `::`, the IPv6 unspecified address. */
  const Unspecified: IP := V6([0, 0, 0, 0, 0, 0, 0, 0, 0, 0, 0, 0, 0, 0, 0, 0])

  /** `fe80::`, the base of the IPv6 link-local prefix fe80::/10. */
  const LinkLocalBase: IP := V6([0xfe, 0x80, 0, 0, 0, 0, 0, 0, 0, 0, 0, 0, 0, 0, 0, 0])

  /** An address with a canonical mask, written as its number of leading one bits. */
  datatype IPNet = IPNet(ip: IP, ones: nat)

  /** A `net.Addr` as an interface enumeration returns it: an `*net.IPNet`, or
      any other kind of address (a `*net.TCPAddr`, say), named by its network. */
  datatype Addr = IPNetAddr(ipn: IPNet) | OtherAddr(network: string)

  /** Byte `i` of the mask with `ones` leading one bits (Go's `CIDRMask`):
      all ones, all zeros, or the partial byte `^(0xff >> n)`. */
  function MaskByte(ones: nat, i: nat): byte {
    if ones >= 8 * i + 8 then 0xFF
    else if ones <= 8 * i then 0
    else !(0xFF >> (ones - 8 * i))
  }

  /** The bytes of `b` ANDed with the mask of `ones` leading one bits. */
  function MaskBytes(b: seq<byte>, ones: nat): (r: seq<byte>)
    ensures |r| == |b|
  {
    seq(|b|, i requires 0 <= i < |b| => b[i] & MaskByte(ones, i))
  }

  /** The network address of `ip` under a prefix of length `ones`: every bit
      past the prefix cleared (Go's `ip.Mask(CIDRMask(ones, bits))`). */
  function Network(ip: IP, ones: nat): (r: IP)
    ensures r.V4? == ip.V4?
    ensures r.Bytes() == MaskBytes(ip.Bytes(), ones)
  {
    match ip
    case V4(b) => V4(MaskBytes(b, ones))
    case V6(b) => V6(MaskBytes(b, ones))
  }

  /** Bit `k` of an address, counting from the most significant bit of its first byte. */
  predicate Bit(b: seq<byte>, k: nat)
    requires k < 8 * |b|
  {
    ByteBit(b[k / 8], k % 8)
  }

  /** Bit `j` of a byte, counting from its most significant bit. */
  predicate ByteBit(x: byte, j: nat)
    requires j < 8
  {
    (x >> (7 - j)) & 1 == 1
  }

  /** No bit at or past position `ones` is set. */
  predicate HostBitsClear(ip: IP, ones: nat) {
    forall k: nat :: ones <= k < ip.BitLen() ==> !Bit(ip.Bytes(), k)
  }

  /** Go's `IP.IsLinkLocalUnicast`: 169.254.0.0/16 for IPv4 (including the
      IPv4-mapped form, which the model writes as `V4`), and for IPv6 a
      test on the first two bytes that is exactly membership of fe80::/10
      (section 2.5.6 of RFC 4291). */
  predicate IsLinkLocalUnicast(ip: IP)
    ensures ip.V6? ==> (IsLinkLocalUnicast(ip) <==> Network(ip, 10) == Network(LinkLocalBase, 10))
  {
    match ip
    case V4(b) => b[0] == 169 && b[1] == 254
    case V6(b) =>
      LinkLocalBytes(b);
      b[0] == 0xfe && b[1] & 0xc0 == 0x80
  }

  /** Within one byte, bit `j` of `x` masked by a partial mask of `r` ones is
      bit `j` of `x` when `j < r`, and clear otherwise. */
  lemma ByteMaskBit(x: byte, r: nat, j: nat)
    requires r <= 8 && j < 8
    ensures ByteBit(x & !(0xFF >> r), j) <==> j < r && ByteBit(x, j)
  {
  }

  lemma ZeroByteBit(j: nat)
    requires j < 8
    ensures !ByteBit(0, j)
  {
  }

  /** Masking keeps the bits inside the prefix and clears every bit past it. */
  lemma MaskBytesBit(b: seq<byte>, ones: nat, k: nat)
    requires k < 8 * |b|
    ensures Bit(MaskBytes(b, ones), k) <==> k < ones && Bit(b, k)
  {
    var i, j := k / 8, k % 8;
    assert k == 8 * i + j;
    MaskBytesByteBit(b, ones, i, j);
  }

  lemma MaskBytesByteBit(b: seq<byte>, ones: nat, i: nat, j: nat)
    requires i < |b| && j < 8
    ensures ByteBit(MaskBytes(b, ones)[i], j) <==> 8 * i + j < ones && ByteBit(b[i], j)
  {
    var x, y := b[i], MaskBytes(b, ones)[i];
    assert y == x & MaskByte(ones, i);
    if ones >= 8 * i + 8 {
      assert y == x;
    } else if ones <= 8 * i {
      assert y == 0;
      ZeroByteBit(j);
    } else {
      ByteMaskBit(x, ones - 8 * i, j);
    }
  }

  /** The network address has no host bits set, and agrees with the address
      on every bit of the prefix. */
  lemma NetworkBits(ip: IP, ones: nat)
    ensures HostBitsClear(Network(ip, ones), ones)
    ensures forall k: nat :: k < ones && k < ip.BitLen() ==>
      (Bit(Network(ip, ones).Bytes(), k) <==> Bit(ip.Bytes(), k))
  {
    forall k: nat | k < ip.BitLen()
      ensures Bit(Network(ip, ones).Bytes(), k) <==> k < ones && Bit(ip.Bytes(), k)
    {
      MaskBytesBit(ip.Bytes(), ones, k);
    }
  }

  /** Masking an already-masked address changes nothing. */
  lemma NetworkIdempotent(ip: IP, ones: nat)
    ensures Network(Network(ip, ones), ones) == Network(ip, ones)
  {
    var n := Network(ip, ones);
    assert MaskBytes(n.Bytes(), ones) == n.Bytes();
  }

  /** With a prefix length that is a whole number of bytes, masking keeps the
      leading bytes and zeroes the rest. */
  lemma ByteAlignedMask(b: seq<byte>, ones: nat)
    requires ones % 8 == 0 && ones <= 8 * |b|
    ensures MaskBytes(b, ones) == b[..ones / 8] + seq(|b| - ones / 8, _ => 0)
  {
    var m := MaskBytes(b, ones);
    var z: seq<byte> := seq(|b| - ones / 8, _ => 0);
    forall i | 0 <= i < |b| ensures m[i] == (b[..ones / 8] + z)[i] {
      if i < ones / 8 {
        assert MaskByte(ones, i) == 0xFF;
      } else {
        assert MaskByte(ones, i) == 0;
      }
    }
  }

  /** An address whose host bits are already clear is its own network. */
  lemma {:induction false} ClearAddressIsNetwork(ip: IP, ones: nat)
    requires HostBitsClear(ip, ones)
    ensures Network(ip, ones) == ip
  {
    var b := ip.Bytes();
    var m := MaskBytes(b, ones);
    forall i | 0 <= i < |b| ensures m[i] == b[i] {
      if ones < 8 * i + 8 {
        forall k: nat | 8 * i <= k < 8 * i + 8
          ensures Bit(m, k) == Bit(b, k)
        {
          MaskBytesBit(b, ones, k);
        }
        SameBitsSameByte(m, b, i);
      }
    }
    assert m == b;
  }

  /** Two bytes with the same eight bits are equal. */
  lemma SameBitsSameByte(m: seq<byte>, b: seq<byte>, i: nat)
    requires |m| == |b| && i < |b|
    requires forall k: nat :: 8 * i <= k < 8 * i + 8 ==> Bit(m, k) == Bit(b, k)
    ensures m[i] == b[i]
  {
    var x, y := m[i], b[i];
    assert Bit(m, 8 * i + 0) == Bit(b, 8 * i + 0);
    assert Bit(m, 8 * i + 1) == Bit(b, 8 * i + 1);
    assert Bit(m, 8 * i + 2) == Bit(b, 8 * i + 2);
    assert Bit(m, 8 * i + 3) == Bit(b, 8 * i + 3);
    assert Bit(m, 8 * i + 4) == Bit(b, 8 * i + 4);
    assert Bit(m, 8 * i + 5) == Bit(b, 8 * i + 5);
    assert Bit(m, 8 * i + 6) == Bit(b, 8 * i + 6);
    assert Bit(m, 8 * i + 7) == Bit(b, 8 * i + 7);
    BitsDetermineByte(x, y);
  }

  lemma BitsDetermineByte(x: byte, y: byte)
    requires (x >> 7) & 1 == (y >> 7) & 1 && (x >> 6) & 1 == (y >> 6) & 1
    requires (x >> 5) & 1 == (y >> 5) & 1 && (x >> 4) & 1 == (y >> 4) & 1
    requires (x >> 3) & 1 == (y >> 3) & 1 && (x >> 2) & 1 == (y >> 2) & 1
    requires (x >> 1) & 1 == (y >> 1) & 1 && (x >> 0) & 1 == (y >> 0) & 1
    ensures x == y
  {
  }

  /** The link-local byte test agrees with masking to ten bits. */
  lemma LinkLocalBytes(b: V6Bytes)
    ensures (b[0] == 0xfe && b[1] & 0xc0 == 0x80) <==> MaskBytes(b, 10) == MaskBytes(LinkLocalBase.v6, 10)
  {
    var n, l := MaskBytes(b, 10), MaskBytes(LinkLocalBase.v6, 10);
    assert n[0] == b[0] && n[1] == b[1] & 0xc0;
    assert l[0] == 0xfe && l[1] == 0x80;
    forall i | 2 <= i < 16 ensures n[i] == 0 && l[i] == 0 {}
    if b[0] == 0xfe && b[1] & 0xc0 == 0x80 {
      assert n == l;
    }
  }
}

=== FILE: plugin.dfy ===
/**
  The advertisement plugin engine: the four plugin kinds, each one's `Apply`
  (which appends options to a Router Advertisement), the automatic prefix
  discovery of the Prefix plugin, and the fold of an ordered plugin list over
  an advertisement.
*/
module Plugins {
  import opened Wrappers
  import opened Net
  import Ndp

  /** What the Prefix plugin's `Addrs` callback gives when called: no
      callback at all, a list of addresses, or an error. */
  datatype AddrSource = Unset | Returns(addrs: seq<Addr>) | Fails(cause: string)

  datatype Plugin =
    | DNSSL(lifetime: Ndp.Duration, domainNames: seq<string>)
    | Prefix(
        prefix: IPNet,
        onLink: bool,
        autonomous: bool,
        preferredLifetime: Ndp.Duration,
        validLifetime: Ndp.Duration,
        addrs: AddrSource)
    | MTU(mtu: int)
    | RDNSS(lifetime: Ndp.Duration, servers: seq<IP>)

  datatype Error = AddrsFailed(cause: string) | AddrsUnset

  /** A Prefix plugin configured with `::/N` expands to the interface's own
      prefixes of length N; any other prefix is advertised as configured. */
  predicate IsAutomatic(p: Plugin)
    requires p.Prefix?
    ensures IsAutomatic(p) <==> p.prefix.ip.V6? && forall i :: 0 <= i < 16 ==> p.prefix.ip.v6[i] == 0
    ensures IsAutomatic(p) ==> HostBitsClear(p.prefix.ip, p.prefix.ones)
  {
    if p.prefix.ip == Unspecified then
      UnspecifiedIsNetwork(p.prefix.ones);
      true
    else false
  }

  /** `::` has no bit set, so every prefix length leaves it clear. */
  lemma UnspecifiedIsNetwork(ones: nat)
    ensures HostBitsClear(Unspecified, ones)
  {
    forall k: nat | ones <= k < Unspecified.BitLen() ensures !Bit(Unspecified.Bytes(), k) {
      ZeroByteBit(k % 8);
    }
  }

  /** An enumerated address that automatic discovery keeps for a prefix length:
      an address/mask pair, IPv6, not link-local, with exactly that mask length. */
  predicate Eligible(a: Addr, length: nat)
    ensures Eligible(a, length) <==>
      && a.IPNetAddr? && a.ipn.ip.V6? && a.ipn.ones == length
      && Network(a.ipn.ip, 10) != Network(LinkLocalBase, 10)
  {
    && a.IPNetAddr?
    && a.ipn.ip.V6?
    && !IsLinkLocalUnicast(a.ipn.ip)
    && a.ipn.ones == length
  }

  /** The network of an address/mask pair under a prefix length. */
  function NetworkOfAddr(a: Addr, length: nat): IP
    requires a.IPNetAddr?
  {
    Network(a.ipn.ip, length)
  }

  /** `x` is the network of some eligible address of the list. */
  ghost predicate IsNetworkOf(addrs: seq<Addr>, length: nat, x: IP) {
    exists i :: 0 <= i < |addrs| && Eligible(addrs[i], length) && NetworkOfAddr(addrs[i], length) == x
  }

  /** The filtering and masking part of discovery: the network of every eligible address, in
      enumeration order, repeats included. */
  function Candidates(addrs: seq<Addr>, length: nat): (r: seq<IP>)
    ensures |r| <= |addrs|
  {
    if addrs == [] then []
    else
      var rest := Candidates(addrs[1..], length);
      if Eligible(addrs[0], length) then [NetworkOfAddr(addrs[0], length)] + rest else rest
  }

  /** The candidates are exactly the networks of the eligible addresses. */
  lemma {:induction false} CandidatesMembers(addrs: seq<Addr>, length: nat)
    ensures forall x :: x in Candidates(addrs, length) <==> IsNetworkOf(addrs, length, x)
  {
    if addrs != [] {
      CandidatesMembers(addrs[1..], length);
      forall x ensures IsNetworkOf(addrs, length, x) ==>
        (Eligible(addrs[0], length) && NetworkOfAddr(addrs[0], length) == x) || IsNetworkOf(addrs[1..], length, x)
      {
        if IsNetworkOf(addrs, length, x) {
          var i :| 0 <= i < |addrs| && Eligible(addrs[i], length) && NetworkOfAddr(addrs[i], length) == x;
          if i > 0 { assert addrs[1..][i - 1] == addrs[i]; }
        }
      }
      forall x | IsNetworkOf(addrs[1..], length, x) ensures IsNetworkOf(addrs, length, x) {
        var i :| 0 <= i < |addrs[1..]| && Eligible(addrs[1..][i], length) && NetworkOfAddr(addrs[1..][i], length) == x;
        assert addrs[i + 1] == addrs[1..][i];
      }
    }
  }

  /** Candidates of a concatenation are the concatenated candidates: the
      enumeration order is kept. */
  lemma {:induction false} CandidatesConcat(xs: seq<Addr>, ys: seq<Addr>, length: nat)
    ensures Candidates(xs + ys, length) == Candidates(xs, length) + Candidates(ys, length)
  {
    if xs == [] {
      assert xs + ys == ys;
    } else {
      assert (xs + ys)[0] == xs[0] && (xs + ys)[1..] == xs[1..] + ys;
      CandidatesConcat(xs[1..], ys, length);
    }
  }

  /** An entry discovery does not keep contributes no candidate. */
  lemma IneligibleIgnored(a: Addr, addrs: seq<Addr>, length: nat)
    requires !Eligible(a, length)
    ensures Candidates([a] + addrs, length) == Candidates(addrs, length)
  {
    assert ([a] + addrs)[1..] == addrs;
  }

  /** Every candidate is an IPv6 network with all host bits clear. */
  lemma CandidateNetworks(addrs: seq<Addr>, length: nat)
    ensures forall x :: x in Candidates(addrs, length) ==> x.V6? && HostBitsClear(x, length)
  {
    CandidatesMembers(addrs, length);
    forall x | x in Candidates(addrs, length)
      ensures x.V6? && HostBitsClear(x, length)
    {
      var i :| 0 <= i < |addrs| && Eligible(addrs[i], length) && NetworkOfAddr(addrs[i], length) == x;
      NetworkBits(addrs[i].ipn.ip, length);
    }
  }

  ghost predicate NoDuplicates<T>(s: seq<T>) {
    forall i, j :: 0 <= i < j < |s| ==> s[i] != s[j]
  }

  /** The de-duplicating part of discovery: keep each value the first time it is seen
      and drop later repeats, given the values already emitted (`seen`). */
  function FirstSeen<T(==,!new)>(s: seq<T>, seen: set<T>): (r: seq<T>)
    ensures |r| <= |s|
    ensures forall x :: x in r ==> x in s
  {
    if s == [] then []
    else if s[0] in seen then FirstSeen(s[1..], seen)
    else [s[0]] + FirstSeen(s[1..], seen + {s[0]})
  }

  /** `FirstSeen` keeps every value not seen before, once. */
  lemma {:induction false} FirstSeenMembers<T(!new)>(s: seq<T>, seen: set<T>)
    ensures NoDuplicates(FirstSeen(s, seen))
    ensures forall x :: x in FirstSeen(s, seen) <==> x in s && x !in seen
  {
    if s != [] {
      FirstSeenMembers(s[1..], seen);
      FirstSeenMembers(s[1..], seen + {s[0]});
      assert forall x :: x in s <==> x == s[0] || x in s[1..];
    }
  }

  /** The position of the first occurrence of `x` in `s`. */
  ghost function FirstIndex<T>(s: seq<T>, x: T): (k: nat)
    requires x in s
    ensures k < |s| && s[k] == x
    ensures forall i :: 0 <= i < k ==> s[i] != x
  {
    if s[0] == x then 0 else FirstIndex(s[1..], x) + 1
  }

  /** `FirstSeen` keeps the order of first occurrences. */
  lemma {:induction false} FirstSeenOrder<T(!new)>(s: seq<T>, seen: set<T>, i: nat, j: nat)
    requires i < j < |FirstSeen(s, seen)|
    ensures var r := FirstSeen(s, seen);
      FirstIndex(s, r[i]) < FirstIndex(s, r[j])
  {
    var r := FirstSeen(s, seen);
    assert r[i] in r && r[j] in r;
    FirstSeenMembers(s, seen);
    if s[0] in seen {
      FirstSeenOrder(s[1..], seen, i, j);
      assert r[i] != s[0] && r[j] != s[0];
    } else {
      var t := FirstSeen(s[1..], seen + {s[0]});
      assert r == [s[0]] + t;
      assert r[j] == t[j - 1] && t[j - 1] in t;
      FirstSeenMembers(s[1..], seen + {s[0]});
      if i > 0 {
        assert r[i] == t[i - 1] && t[i - 1] in t;
        FirstSeenOrder(s[1..], seen + {s[0]}, i - 1, j - 1);
      }
    }
  }

  /** The networks automatic discovery emits: each eligible address's
      network, the first time it appears. */
  function AutoPrefixes(addrs: seq<Addr>, length: nat): (r: seq<IP>)
    ensures |r| <= |addrs|
    ensures forall x :: x in r ==> x in Candidates(addrs, length)
  {
    FirstSeen(Candidates(addrs, length), {})
  }

  /** Automatic discovery emits each network of an eligible address exactly
      once, as an IPv6 network with no host bits set, in the order in which
      the networks first appear among the eligible addresses. */
  lemma AutoPrefixesSpec(addrs: seq<Addr>, length: nat)
    ensures var r := AutoPrefixes(addrs, length);
      && NoDuplicates(r)
      && (forall x :: x in r <==> IsNetworkOf(addrs, length, x))
      && (forall x :: x in r ==> x.V6? && HostBitsClear(x, length))
      && (forall i, j :: 0 <= i < j < |r| ==>
            FirstIndex(Candidates(addrs, length), r[i]) < FirstIndex(Candidates(addrs, length), r[j]))
  {
    var c := Candidates(addrs, length);
    CandidateNetworks(addrs, length);
    CandidatesMembers(addrs, length);
    FirstSeenMembers(c, {});
    forall i, j | 0 <= i < j < |FirstSeen(c, {})|
      ensures FirstIndex(c, FirstSeen(c, {})[i]) < FirstIndex(c, FirstSeen(c, {})[j])
    {
      FirstSeenOrder(c, {}, i, j);
    }
  }

  /** The Prefix Information option the plugin advertises for `network`. */
  function PrefixOption(p: Plugin, network: IP): (o: Ndp.Option)
    requires p.Prefix?
    ensures o.PrefixInformation? && o.prefix == network
  {
    Ndp.PrefixInformation(
      prefixLength := p.prefix.ones,
      onLink := p.onLink,
      autonomousAddressConfiguration := p.autonomous,
      preferredLifetime := p.preferredLifetime,
      validLifetime := p.validLifetime,
      prefix := network)
  }

  /** Go's `uint32(i)` conversion: the low 32 bits of `i`. */
  function Uint32(i: int): (r: Ndp.uint32)
    ensures 0 <= i < 0x1_0000_0000 ==> r == i
    ensures (i - r) % 0x1_0000_0000 == 0
  {
    i % 0x1_0000_0000
  }

  /** The options one plugin contributes to an advertisement, or its error. */
  function Contribution(p: Plugin): (r: Result<seq<Ndp.Option>, Error>)
    ensures r.Err? <==> p.Prefix? && IsAutomatic(p) && !p.addrs.Returns?
    ensures r.Ok? && !(p.Prefix? && IsAutomatic(p)) ==> |r.value| == 1
    ensures r.Ok? ==> forall o <- r.value :: o.PrefixInformation? <==> p.Prefix?
  {
    match p
    case DNSSL(lifetime, names) => Ok([Ndp.DNSSearchList(lifetime, names)])
    case RDNSS(lifetime, servers) => Ok([Ndp.RecursiveDNSServer(lifetime, servers)])
    case MTU(m) => Ok([Ndp.MTU(Uint32(m))])
    case Prefix(prefix, _, _, _, _, source) =>
      if !IsAutomatic(p) then Ok([PrefixOption(p, prefix.ip)])
      else
        match source
        case Unset => Err(AddrsUnset)
        case Fails(cause) => Err(AddrsFailed(cause))
        case Returns(addrs) =>
          var nets := AutoPrefixes(addrs, prefix.ones);
          Ok(seq(|nets|, i requires 0 <= i < |nets| => PrefixOption(p, nets[i])))
  }

  /** `Plugin.Apply`: append this plugin's options to the advertisement. */
  function Apply(p: Plugin, ra: Ndp.RouterAdvertisement): (r: Result<Ndp.RouterAdvertisement, Error>)
    ensures r.Ok? ==> Ndp.Extends(ra, r.value)
    ensures r.Err? <==> p.Prefix? && IsAutomatic(p) && !p.addrs.Returns?
  {
    match Contribution(p)
    case Err(e) => Err(e)
    case Ok(opts) =>
      Ndp.AppendExtends(ra, opts);
      Ok(ra.(options := ra.options + opts))
  }

  /** The DNSSL plugin appends one DNS Search List option with its lifetime
      and domain names unchanged. */
  lemma ApplyDNSSL(lifetime: Ndp.Duration, names: seq<string>, ra: Ndp.RouterAdvertisement)
    ensures Apply(DNSSL(lifetime, names), ra)
      == Ok(ra.(options := ra.options + [Ndp.DNSSearchList(lifetime, names)]))
  {
  }

  /** The RDNSS plugin appends one Recursive DNS Server option with its
      lifetime and servers unchanged. */
  lemma ApplyRDNSS(lifetime: Ndp.Duration, servers: seq<IP>, ra: Ndp.RouterAdvertisement)
    ensures Apply(RDNSS(lifetime, servers), ra)
      == Ok(ra.(options := ra.options + [Ndp.RecursiveDNSServer(lifetime, servers)]))
  {
  }

  /** The MTU plugin appends one MTU option carrying its value (as a 32-bit
      unsigned integer). */
  lemma ApplyMTU(m: int, ra: Ndp.RouterAdvertisement)
    requires 0 <= m < 0x1_0000_0000
    ensures Apply(MTU(m), ra) == Ok(ra.(options := ra.options + [Ndp.MTU(m)]))
  {
  }

  /** A static Prefix plugin appends one Prefix Information option for the
      configured network and length, with the configured flags and lifetimes. */
  lemma ApplyStaticPrefix(p: Plugin, ra: Ndp.RouterAdvertisement)
    requires p.Prefix? && !IsAutomatic(p)
    ensures Apply(p, ra) == Ok(ra.(options := ra.options + [Ndp.PrefixInformation(
      p.prefix.ones, p.onLink, p.autonomous, p.preferredLifetime, p.validLifetime, p.prefix.ip)]))
  {
  }

  /** An automatic Prefix plugin whose address source succeeds appends, after
      the existing options, one Prefix Information option per network that
      discovery emits (see `AutoPrefixesSpec`), in that order, each with the
      configured length, flags and lifetimes. */
  lemma AutomaticPrefix(p: Plugin, ra: Ndp.RouterAdvertisement)
    requires p.Prefix? && IsAutomatic(p) && p.addrs.Returns?
    ensures Apply(p, ra).Ok?
    ensures var added := Apply(p, ra).value.options[|ra.options|..];
      var nets := AutoPrefixes(p.addrs.addrs, p.prefix.ones);
      && |added| == |nets|
      && forall i :: 0 <= i < |added| ==> added[i] == Ndp.PrefixInformation(
           p.prefix.ones, p.onLink, p.autonomous, p.preferredLifetime, p.validLifetime, nets[i])
  {
    var nets := AutoPrefixes(p.addrs.addrs, p.prefix.ones);
    var opts := seq(|nets|, i requires 0 <= i < |nets| => PrefixOption(p, nets[i]));
    assert Contribution(p) == Ok(opts);
    Ndp.AppendExtends(ra, opts);
  }

  /** An automatic Prefix plugin whose address source fails (or is missing)
      appends nothing and reports the failure. */
  lemma AutomaticPrefixFails(p: Plugin, ra: Ndp.RouterAdvertisement)
    requires p.Prefix? && IsAutomatic(p) && !p.addrs.Returns?
    ensures Apply(p, ra) == if p.addrs.Fails? then Err(AddrsFailed(p.addrs.cause)) else Err(AddrsUnset)
  {
  }

  /** Every Prefix Information option a Prefix plugin appends, static or
      automatic, carries a network with no bit set past its prefix length,
      provided the configured prefix is itself a network (as `ParseCIDR`
      returns it). */
  lemma PrefixNetworksClear(p: Plugin, ra: Ndp.RouterAdvertisement)
    requires p.Prefix? && HostBitsClear(p.prefix.ip, p.prefix.ones)
    requires Apply(p, ra).Ok?
    ensures var added := Apply(p, ra).value.options[|ra.options|..];
      forall o <- added :: o.PrefixInformation? && o.prefixLength == p.prefix.ones
        && HostBitsClear(o.prefix, o.prefixLength)
  {
    var added := Apply(p, ra).value.options[|ra.options|..];
    if IsAutomatic(p) {
      AutomaticPrefix(p, ra);
      var nets := AutoPrefixes(p.addrs.addrs, p.prefix.ones);
      AutoPrefixesSpec(p.addrs.addrs, p.prefix.ones);
      forall o <- added
        ensures o.PrefixInformation? && o.prefixLength == p.prefix.ones && HostBitsClear(o.prefix, o.prefixLength)
      {
        var i :| 0 <= i < |added| && added[i] == o;
        assert nets[i] in nets;
      }
    } else {
      ApplyStaticPrefix(p, ra);
      assert added == [PrefixOption(p, p.prefix.ip)];
    }
  }

  /** The fold of `TestBuild`: each plugin, in list order, is applied to the
      advertisement the previous one returned; the first error ends it. */
  function Fold(ps: seq<Plugin>, ra: Ndp.RouterAdvertisement): (r: Result<Ndp.RouterAdvertisement, Error>)
    ensures r.Ok? ==> Ndp.Extends(ra, r.value)
    ensures ps == [] ==> r == Ok(ra)
  {
    if ps == [] then Ok(ra)
    else
      match Apply(ps[0], ra)
      case Err(e) => Err(e)
      case Ok(next) =>
        var r := Fold(ps[1..], next);
        if r.Ok? then Ndp.ExtendsTransitive(ra, next, r.value); r else r
  }

  /** The options a plugin list contributes, one plugin after another, or the
      error of the first plugin that fails. */
  function Contributions(ps: seq<Plugin>): Result<seq<Ndp.Option>, Error> {
    if ps == [] then Ok([])
    else
      match Contribution(ps[0])
      case Err(e) => Err(e)
      case Ok(first) =>
        match Contributions(ps[1..])
        case Err(e) => Err(e)
        case Ok(rest) => Ok(first + rest)
  }

  /** Folding a plugin list appends, after the existing options, exactly the
      concatenation of the plugins' contributions in list order, leaving the
      header alone; it fails exactly when some plugin fails. */
  lemma {:induction false} FoldAppendsContributions(ps: seq<Plugin>, ra: Ndp.RouterAdvertisement)
    ensures Fold(ps, ra) == match Contributions(ps)
      case Err(e) => Err(e)
      case Ok(opts) => Ok(ra.(options := ra.options + opts))
  {
    if ps != [] {
      match Contribution(ps[0])
      case Err(e) =>
        assert Apply(ps[0], ra) == Err(e);
      case Ok(first) =>
        var next := ra.(options := ra.options + first);
        assert Apply(ps[0], ra) == Ok(next);
        FoldAppendsContributions(ps[1..], next);
        if Contributions(ps[1..]).Ok? {
          var rest := Contributions(ps[1..]).value;
          assert Contributions(ps) == Ok(first + rest);
          AppendTwice(ra, first, rest);
        }
    } else {
      assert ra.(options := ra.options + []) == ra;
    }
  }

  /** Appending two option lists one after the other is appending their concatenation. */
  lemma AppendTwice(ra: Ndp.RouterAdvertisement, first: seq<Ndp.Option>, rest: seq<Ndp.Option>)
    ensures var next := ra.(options := ra.options + first);
      next.(options := next.options + rest) == ra.(options := ra.options + (first + rest))
  {
    assert ra.options + first + rest == ra.options + (first + rest);
  }

  /** Folding a list split in two is folding the second part over the result
      of the first. */
  lemma {:induction false} FoldConcat(ps: seq<Plugin>, qs: seq<Plugin>, ra: Ndp.RouterAdvertisement)
    ensures Fold(ps + qs, ra) == match Fold(ps, ra)
      case Err(e) => Err(e)
      case Ok(mid) => Fold(qs, mid)
  {
    if ps == [] {
      assert ps + qs == qs;
    } else {
      assert (ps + qs)[0] == ps[0] && (ps + qs)[1..] == ps[1..] + qs;
      match Apply(ps[0], ra)
      case Err(e) =>
      case Ok(next) => FoldConcat(ps[1..], qs, next);
    }
  }

  /** The options of an earlier plugin precede those of a later one. */
  lemma FoldOrder(p1: Plugin, p2: Plugin, ra: Ndp.RouterAdvertisement)
    requires Fold([p1, p2], ra).Ok?
    ensures Contribution(p1).Ok? && Contribution(p2).Ok?
    ensures Fold([p1, p2], ra).value.options
      == ra.options + Contribution(p1).value + Contribution(p2).value
  {
    FoldAppendsContributions([p1, p2], ra);
    assert [p1, p2][0] == p1 && [p1, p2][1..] == [p2];
    assert [p2][0] == p2 && [p2][1..] == [];
    assert Contribution(p1).Ok? && Contribution(p2).Ok?;
    var c1, c2 := Contribution(p1).value, Contribution(p2).value;
    assert Contributions([p2]) == Ok(c2 + []);
    assert Contributions([p1, p2]) == Ok(c1 + (c2 + []));
    assert c1 + (c2 + []) == c1 + c2;
    assert ra.options + (c1 + c2) == ra.options + c1 + c2;
  }

  /** If plugin `k` is the first whose contribution fails, the fold fails
      with its error, whatever the plugins after it are. */
  lemma {:induction false} FirstErrorStops(ps: seq<Plugin>, k: nat, ra: Ndp.RouterAdvertisement)
    requires k < |ps|
    requires forall j :: 0 <= j < k ==> Contribution(ps[j]).Ok?
    requires Contribution(ps[k]).Err?
    ensures Fold(ps, ra) == Err(Contribution(ps[k]).error)
  {
    if k > 0 {
      assert Contribution(ps[0]).Ok?;
      var next := Apply(ps[0], ra).value;
      assert forall j :: 0 <= j < k - 1 ==> ps[1..][j] == ps[j + 1];
      FirstErrorStops(ps[1..], k - 1, next);
    }
  }

  /** The fold fails exactly when some plugin's contribution fails. */
  lemma {:induction false} FoldFailsIffSomePluginFails(ps: seq<Plugin>, ra: Ndp.RouterAdvertisement)
    ensures Fold(ps, ra).Err? <==> exists k :: 0 <= k < |ps| && Contribution(ps[k]).Err?
  {
    if ps != [] {
      if Contribution(ps[0]).Err? {
        assert Apply(ps[0], ra).Err?;
      } else {
        var next := ra.(options := ra.options + Contribution(ps[0]).value);
        assert Apply(ps[0], ra) == Ok(next);
        FoldFailsIffSomePluginFails(ps[1..], next);
        if exists k :: 0 <= k < |ps[1..]| && Contribution(ps[1..][k]).Err? {
          var k :| 0 <= k < |ps[1..]| && Contribution(ps[1..][k]).Err?;
          assert ps[k + 1] == ps[1..][k];
        }
        if exists k :: 0 <= k < |ps| && Contribution(ps[k]).Err? {
          var k :| 0 <= k < |ps| && Contribution(ps[k]).Err?;
          assert k > 0 && ps[1..][k - 1] == ps[k];
        }
      }
    }
  }

  /** `Fold` written as `TestBuild` runs it: a loop reassigning the
      advertisement, returning at the first error. */
  method ApplyAll(plugins: seq<Plugin>, ra: Ndp.RouterAdvertisement) returns (r: Result<Ndp.RouterAdvertisement, Error>)
    ensures r == Fold(plugins, ra)
  {
    var got := ra;
    var i := 0;
    while i < |plugins|
      invariant 0 <= i <= |plugins|
      invariant Fold(plugins[..i], ra) == Ok(got)
    {
      var p := plugins[i];
      FoldConcat(plugins[..i], [p], ra);
      FoldConcat(plugins[..i + 1], plugins[i + 1..], ra);
      assert plugins[..i] + [p] == plugins[..i + 1];
      assert plugins[..i + 1] + plugins[i + 1..] == plugins;
      assert [p][1..] == [];
      var res := Apply(p, got);
      if res.Err? {
        return Err(res.error);
      }
      got := res.value;
      i := i + 1;
    }
    assert plugins[..i] == plugins;
    return Ok(got);
  }
}

=== FILE: plugin_tests.dfy ===
/**
  The scenarios of `TestBuild` and `TestPluginString`, each stated as a lemma
  about the model: folding the test's plugins over a fresh advertisement gives
  exactly the test's expected advertisement, and each summary is the test's
  expected text once Go's formatting of durations and addresses is fixed.
*/
module PluginTests {
  import opened Wrappers
  import opened Net
  import Ndp
  import opened Plugins
  import opened PluginText

  // The addresses the tests parse.
  const Ip2001db8: IP := V6([0x20, 0x01, 0x0d, 0xb8, 0, 0, 0, 0, 0, 0, 0, 0, 0, 0, 0, 0])
  const Ip2001db8_1: IP := V6([0x20, 0x01, 0x0d, 0xb8, 0, 0, 0, 0, 0, 0, 0, 0, 0, 0, 0, 1])
  const Ip2001db8_2: IP := V6([0x20, 0x01, 0x0d, 0xb8, 0, 0, 0, 0, 0, 0, 0, 0, 0, 0, 0, 2])
  const IpFd00: IP := V6([0xfd, 0, 0, 0, 0, 0, 0, 0, 0, 0, 0, 0, 0, 0, 0, 0])
  const IpFd00_1: IP := V6([0xfd, 0, 0, 0, 0, 0, 0, 0, 0, 0, 0, 0, 0, 0, 0, 1])
  const IpFdff_1: IP := V6([0xfd, 0xff, 0, 0, 0, 0, 0, 0, 0, 0, 0, 0, 0, 0, 0, 1])
  const IpFe80_1: IP := V6([0xfe, 0x80, 0, 0, 0, 0, 0, 0, 0, 0, 0, 0, 0, 0, 0, 1])
  const Ip192_0_2_1: IP := V4([192, 0, 2, 1])

  /** What `mustCIDR` returns: the network of the written address, with its mask. */
  function Cidr(ip: IP, ones: nat): (n: IPNet)
    ensures n.ones == ones && n.ip.V4? == ip.V4?
    ensures n.ip == Network(ip, ones) && HostBitsClear(n.ip, ones)
  {
    NetworkBits(ip, ones);
    IPNet(Network(ip, ones), ones)
  }

  /** `::/64` parses to itself. */
  lemma UnspecifiedSlash64()
    ensures Cidr(Unspecified, 64) == IPNet(Unspecified, 64)
  {
    ByteAlignedMask(Unspecified.v6, 64);
  }

  const TenSeconds: Ndp.Duration := 10 * Ndp.Second
  const TwentySeconds: Ndp.Duration := 20 * Ndp.Second
  const Names: seq<string> := ["foo.example.com", "bar.example.com"]

  /** "no config": no plugins leave a fresh advertisement without options. */
  lemma TestBuildNoConfig()
    ensures Fold([], Ndp.Fresh) == Ok(Ndp.Fresh) && Ndp.Fresh.options == []
  {
  }

  lemma TestBuildDNSSL()
    ensures Fold([DNSSL(TenSeconds, Names)], Ndp.Fresh)
      == Ok(Ndp.Fresh.(options := [Ndp.DNSSearchList(TenSeconds, Names)]))
  {
    assert [DNSSL(TenSeconds, Names)][1..] == [];
  }

  lemma TestBuildStaticPrefix()
    ensures var p := Prefix(Cidr(Ip2001db8, 32), true, false, TenSeconds, TwentySeconds, Unset);
      Fold([p], Ndp.Fresh) == Ok(Ndp.Fresh.(options := [
        Ndp.PrefixInformation(32, true, false, TenSeconds, TwentySeconds, Ip2001db8)]))
  {
    var p := Prefix(Cidr(Ip2001db8, 32), true, false, TenSeconds, TwentySeconds, Unset);
    ByteAlignedMask(Ip2001db8.v6, 32);
    assert Cidr(Ip2001db8, 32).ip == Ip2001db8;
    assert !IsAutomatic(p);
    assert [p][1..] == [];
  }

  /** The addresses the automatic test enumerates, in order. */
  function TestAddrs(): seq<Addr> {
    [ IPNetAddr(Cidr(Ip192_0_2_1, 24)),
      OtherAddr("tcp"),
      IPNetAddr(Cidr(IpFe80_1, 64)),
      IPNetAddr(Cidr(IpFdff_1, 32)),
      IPNetAddr(Cidr(Ip2001db8_1, 64)),
      IPNetAddr(Cidr(Ip2001db8_2, 64)),
      IPNetAddr(Cidr(IpFd00_1, 64)) ]
  }

  /** The four entries the test means to be ignored are not eligible: an IPv4
      /24 address, a non-`IPNet` address, a link-local address, and an address
      with a /32 mask. */
  lemma IgnoredAddresses()
    ensures !Eligible(TestAddrs()[0], 64)
    ensures !Eligible(TestAddrs()[1], 64)
    ensures !Eligible(TestAddrs()[2], 64)
    ensures !Eligible(TestAddrs()[3], 64)
  {
    var ll := Network(IpFe80_1, 64);
    assert ll.v6[0] == 0xfe && ll.v6[1] == 0x80;
  }

  /** The /64 networks of the three kept addresses, and of the two networks themselves. */
  lemma KeptNetworks()
    ensures Network(Ip2001db8_1, 64) == Ip2001db8 && Network(Ip2001db8_2, 64) == Ip2001db8
    ensures Network(IpFd00_1, 64) == IpFd00
    ensures Network(Ip2001db8, 64) == Ip2001db8 && Network(IpFd00, 64) == IpFd00
  {
    ByteAlignedMask(Ip2001db8_1.v6, 64);
    ByteAlignedMask(Ip2001db8_2.v6, 64);
    ByteAlignedMask(IpFd00_1.v6, 64);
    ByteAlignedMask(Ip2001db8.v6, 64);
    ByteAlignedMask(IpFd00.v6, 64);
  }

  /** The three remaining entries are eligible, with networks 2001:db8::,
      2001:db8:: again, and fd00::. */
  lemma KeptAddresses()
    ensures Candidates(TestAddrs(), 64) == [Ip2001db8, Ip2001db8, IpFd00]
  {
    var a := TestAddrs();
    IgnoredAddresses();
    KeptNetworks();
    assert Eligible(a[4], 64) && Eligible(a[5], 64) && Eligible(a[6], 64);
    assert Candidates(a[6..], 64) == [IpFd00];
    assert Candidates(a[5..], 64) == [Ip2001db8, IpFd00];
    assert Candidates(a[4..], 64) == [Ip2001db8, Ip2001db8, IpFd00];
    assert Candidates(a[3..], 64) == Candidates(a[4..], 64);
    assert Candidates(a[2..], 64) == Candidates(a[3..], 64);
    assert Candidates(a[1..], 64) == Candidates(a[2..], 64);
  }

  /** Discovery over the test's addresses emits 2001:db8:: once, then fd00::. */
  lemma AutomaticScenarioNetworks()
    ensures AutoPrefixes(TestAddrs(), 64) == [Ip2001db8, IpFd00]
  {
    KeptAddresses();
    var c := [Ip2001db8, Ip2001db8, IpFd00];
    assert Ip2001db8 != IpFd00 by { assert Ip2001db8.v6[0] != IpFd00.v6[0]; }
    assert c[1..][1..] == [IpFd00] && c[1..] == [Ip2001db8, IpFd00];
    assert FirstSeen([IpFd00], {Ip2001db8}) == [IpFd00];
    assert FirstSeen(c[1..], {Ip2001db8}) == [IpFd00];
    assert FirstSeen(c, {}) == [Ip2001db8] + FirstSeen(c[1..], {Ip2001db8});
  }

  /** "automatic prefixes": two Prefix Information options, for 2001:db8::/64
      then fd00::/64, each with the configured flags and lifetimes. */
  lemma TestBuildAutomaticPrefixes()
    ensures var p := Prefix(Cidr(Unspecified, 64), true, true, TenSeconds, TwentySeconds, Returns(TestAddrs()));
      Fold([p], Ndp.Fresh) == Ok(Ndp.Fresh.(options := [
        Ndp.PrefixInformation(64, true, true, TenSeconds, TwentySeconds, Ip2001db8),
        Ndp.PrefixInformation(64, true, true, TenSeconds, TwentySeconds, IpFd00)]))
  {
    UnspecifiedSlash64();
    AutomaticScenarioNetworks();
    AutomaticFold(TestAddrs());
  }

  /** Folding the automatic plugin over addresses whose discovery gives
      2001:db8:: and fd00::. */
  lemma AutomaticFold(addrs: seq<Addr>)
    requires AutoPrefixes(addrs, 64) == [Ip2001db8, IpFd00]
    ensures var p := Prefix(IPNet(Unspecified, 64), true, true, TenSeconds, TwentySeconds, Returns(addrs));
      Fold([p], Ndp.Fresh) == Ok(Ndp.Fresh.(options := [
        Ndp.PrefixInformation(64, true, true, TenSeconds, TwentySeconds, Ip2001db8),
        Ndp.PrefixInformation(64, true, true, TenSeconds, TwentySeconds, IpFd00)]))
  {
    var p := Prefix(IPNet(Unspecified, 64), true, true, TenSeconds, TwentySeconds, Returns(addrs));
    assert IsAutomatic(p);
    AutomaticPrefix(p, Ndp.Fresh);
    var r := Apply(p, Ndp.Fresh).value;
    assert r.options[0..] == r.options;
    assert r.options == [
      Ndp.PrefixInformation(64, true, true, TenSeconds, TwentySeconds, Ip2001db8),
      Ndp.PrefixInformation(64, true, true, TenSeconds, TwentySeconds, IpFd00)];
    assert r == Ndp.Fresh.(options := r.options);
    assert [p][1..] == [];
  }

  lemma TestBuildMTU()
    ensures Fold([MTU(1500)], Ndp.Fresh) == Ok(Ndp.Fresh.(options := [Ndp.MTU(1500)]))
  {
    assert [MTU(1500)][1..] == [];
  }

  lemma TestBuildRDNSS()
    ensures Fold([RDNSS(TenSeconds, [Ip2001db8_1, Ip2001db8_2])], Ndp.Fresh)
      == Ok(Ndp.Fresh.(options := [Ndp.RecursiveDNSServer(TenSeconds, [Ip2001db8_1, Ip2001db8_2])]))
  {
    assert [RDNSS(TenSeconds, [Ip2001db8_1, Ip2001db8_2])][1..] == [];
  }

  /** An illustration of the loop at the end of `TestBuild`, which applies
      each plugin in turn: over an MTU plugin then a DNSSL plugin it yields
      both options, in that order. This list is not one of the test's cases. */
  method LoopTwoPlugins() returns (r: Result<Ndp.RouterAdvertisement, Error>)
    ensures r == Ok(Ndp.Fresh.(options := [Ndp.MTU(1500), Ndp.DNSSearchList(TenSeconds, Names)]))
  {
    var ps := [MTU(1500), DNSSL(TenSeconds, Names)];
    r := ApplyAll(ps, Ndp.Fresh);
    var afterMTU := Ndp.Fresh.(options := [Ndp.MTU(1500)]);
    var last := Ndp.Fresh.(options := [Ndp.MTU(1500), Ndp.DNSSearchList(TenSeconds, Names)]);
    assert ps[0] == MTU(1500) && ps[1..] == [DNSSL(TenSeconds, Names)];
    assert ps[1..][0] == DNSSL(TenSeconds, Names) && ps[1..][1..] == [];
    ApplyMTU(1500, Ndp.Fresh);
    ApplyDNSSL(TenSeconds, Names, afterMTU);
    assert afterMTU.options + [Ndp.DNSSearchList(TenSeconds, Names)] == last.options;
    assert Apply(ps[0], Ndp.Fresh) == Ok(afterMTU);
    assert Fold(ps, Ndp.Fresh) == Fold(ps[1..], afterMTU);
    assert Apply(ps[1..][0], afterMTU) == Ok(last);
    assert Fold(ps[1..], afterMTU) == Fold(ps[1..][1..], last);
    assert Fold(ps[1..][1..], last) == Ok(last);
  }

  lemma NamesText()
    ensures "foo.example.com" + ", " + "bar.example.com" == "foo.example.com, bar.example.com"
  {
  }

  /** The two test domain names, bracketed. */
  lemma BracketedNamesText()
    ensures "[" + "foo.example.com, bar.example.com" + "]" == "[foo.example.com, bar.example.com]"
  {
  }

  /** The expected DNSSL summary, piece by piece. */
  lemma DNSSLText()
    ensures "domain names: " + "[foo.example.com, bar.example.com]" + ", lifetime: " + "30s" == "domain names: [foo.example.com, bar.example.com], lifetime: 30s"
  {
    assert "domain names: " + "[foo.example.com, bar.example.com]" == "domain names: [foo.example.com, bar.example.com]";
    assert "domain names: [foo.example.com, bar.example.com]" + ", lifetime: " == "domain names: [foo.example.com, bar.example.com], lifetime: ";
  }

  /** The start of the expected Prefix summary. */
  lemma PrefixHeadText()
    ensures "::/64" + " " + "[on-link, autonomous]" + ", preferred: " == "::/64 [on-link, autonomous], preferred: "
  {
  }

  /** The expected Prefix summary, piece by piece. */
  lemma PrefixText()
    ensures "::/64 [on-link, autonomous], preferred: " + "15m0s" + ", valid: " + "infinite" == "::/64 [on-link, autonomous], preferred: 15m0s, valid: infinite"
  {
  }

  /** The `TestPluginString` cases, given how Go formats the durations and
      addresses involved. */
  lemma TestPluginStringDNSSL(f: Formatters)
    requires f.duration(30 * Ndp.Second) == "30s"
    ensures PluginString(DNSSL(30 * Ndp.Second, Names), f)
      == "domain names: [foo.example.com, bar.example.com], lifetime: 30s"
  {
    JoinTwo("foo.example.com", "bar.example.com", ", ");
    NamesText();
    BracketedNamesText();
    DNSSLText();
  }

  lemma TestPluginStringPrefix(f: Formatters)
    requires f.duration(15 * Ndp.Minute) == "15m0s"
    requires f.ipNet(Cidr(Unspecified, 64)) == "::/64"
    ensures PluginString(Prefix(Cidr(Unspecified, 64), true, true, 15 * Ndp.Minute, Ndp.Infinity, Unset), f)
      == "::/64 [on-link, autonomous], preferred: 15m0s, valid: infinite"
  {
    UnspecifiedSlash64();
    PrefixFlagsRendering(true, true);
    PrefixHeadText();
    PrefixText();
  }

  lemma TestPluginStringMTU(f: Formatters)
    ensures PluginString(MTU(1500), f) == "MTU: 1500"
  {
    assert "1" + "5" == "15";
    assert "15" + "0" == "150";
    assert "150" + "0" == "1500";
    assert "MTU: " + "1500" == "MTU: 1500";
    assert NatString(1) == "1" && NatString(15) == "15" && NatString(150) == "150";
    assert Decimal(1500) == "1500";
  }

  /** The two test servers, bracketed. */
  lemma ServersText()
    ensures "[" + "2001:db8::1" + ", " + "2001:db8::2" + "]" == "[2001:db8::1, 2001:db8::2]"
  {
  }

  /** The expected RDNSS summary, piece by piece. */
  lemma RDNSSText()
    ensures "servers: " + "[2001:db8::1, 2001:db8::2]" + ", lifetime: " + "30s" == "servers: [2001:db8::1, 2001:db8::2], lifetime: 30s"
  {
  }

  lemma TestPluginStringRDNSS(f: Formatters)
    requires f.duration(30 * Ndp.Second) == "30s"
    requires f.ip(Ip2001db8_1) == "2001:db8::1" && f.ip(Ip2001db8_2) == "2001:db8::2"
    ensures PluginString(RDNSS(30 * Ndp.Second, [Ip2001db8_1, Ip2001db8_2]), f)
      == "servers: [2001:db8::1, 2001:db8::2], lifetime: 30s"
  {
    var servers := [Ip2001db8_1, Ip2001db8_2];
    assert ServerStrings(servers, f) == ["2001:db8::1", "2001:db8::2"];
    JoinTwo("2001:db8::1", "2001:db8::2", ", ");
    ServersText();
    RDNSSText();
  }
}

=== FILE: plugin_text.dfy ===
/**
  The human-readable summaries of plugins (`Plugin.String`). Go's own text
  formatting of durations, IP addresses and address/mask pairs is taken as
  given: it is passed in as `Formatters`.
*/
module PluginText {
  import opened Net
  import Ndp
  import opened Plugins

  /** `time.Duration.String`, `net.IP.String` and `net.IPNet.String`. */
  datatype Formatters = Formatters(
    duration: Ndp.Duration -> string,
    ip: IP -> string,
    ipNet: IPNet -> string)

  /** `strings.Join`. */
  function Join(items: seq<string>, sep: string): (r: string)
    ensures |items| == 0 ==> r == ""
    ensures |items| == 1 ==> r == items[0]
  {
    if |items| == 0 then ""
    else if |items| == 1 then items[0]
    else items[0] + sep + Join(items[1..], sep)
  }

  /** A list as `[a, b, c]`. */
  function Bracketed(items: seq<string>): string {
    "[" + Join(items, ", ") + "]"
  }

  predicate IsDigit(c: char) {
    '0' <= c <= '9'
  }

  predicate AllDigits(s: string) {
    forall i :: 0 <= i < |s| ==> IsDigit(s[i])
  }

  function Digit(d: nat): (c: char)
    requires d < 10
    ensures IsDigit(c) && c as int - '0' as int == d
  {
    ('0' as int + d) as char
  }

  /** The decimal digits of `n`, most significant first, without leading zeros. */
  function NatString(n: nat): (s: string)
    ensures |s| >= 1 && AllDigits(s)
    ensures n > 0 ==> s[0] != '0'
  {
    if n < 10 then [Digit(n)] else NatString(n / 10) + [Digit(n % 10)]
  }

  /** `%d` of an integer: an optional minus sign and a numeral, which reads
      back as the same integer. */
  function Decimal(i: int): (s: string)
    ensures |s| > 0 && (if s[0] == '-' then AllDigits(s[1..]) else AllDigits(s))
    ensures ParseInt(s) == i
  {
    if i < 0 then
      var s := "-" + NatString(-i);
      NatStringRoundTrip(-i);
      assert s[1..] == NatString(-i);
      s
    else
      NatStringRoundTrip(i);
      NatString(i)
  }

  function ParseNat(s: string): nat
    requires AllDigits(s)
  {
    if s == [] then 0
    else ParseNat(s[..|s| - 1]) * 10 + (s[|s| - 1] as int - '0' as int)
  }

  /** Reads back an optionally signed decimal numeral. */
  function ParseInt(s: string): int
    requires |s| > 0
    requires if s[0] == '-' then AllDigits(s[1..]) else AllDigits(s)
  {
    if s[0] == '-' then -(ParseNat(s[1..]) as int) else ParseNat(s)
  }

  lemma {:induction false} NatStringRoundTrip(n: nat)
    ensures ParseNat(NatString(n)) == n
  {
    if n >= 10 {
      var s := NatString(n / 10);
      NatStringRoundTrip(n / 10);
      assert (s + [Digit(n % 10)])[..|s|] == s;
    }
  }

  /** The flags a Prefix plugin shows, in this order. */
  function PrefixFlags(onLink: bool, autonomous: bool): seq<string> {
    (if onLink then ["on-link"] else []) + (if autonomous then ["autonomous"] else [])
  }

  /** The formatted servers of an RDNSS plugin, in order. */
  function ServerStrings(servers: seq<IP>, f: Formatters): (r: seq<string>)
    ensures |r| == |servers|
    ensures forall i :: 0 <= i < |servers| ==> r[i] == f.ip(servers[i])
  {
    seq(|servers|, i requires 0 <= i < |servers| => f.ip(servers[i]))
  }

  /** `Plugin.String`. A DNSSL summary lists its names and an RDNSS summary
      its servers, each in brackets, and both end in their lifetime; an MTU
      summary is `MTU: ` then a numeral that reads back as the value; a Prefix
      summary starts with its prefix, its bracketed flags and its preferred
      lifetime, and ends in `valid: infinite` for an `ndp.Infinity` valid
      lifetime and otherwise in the formatted valid lifetime. */
  function PluginString(p: Plugin, f: Formatters): (s: string)
    ensures p.DNSSL? ==>
      s == "domain names: " + Bracketed(p.domainNames) + ", lifetime: " + f.duration(p.lifetime)
    ensures p.RDNSS? ==>
      s == "servers: " + Bracketed(ServerStrings(p.servers, f)) + ", lifetime: " + f.duration(p.lifetime)
    ensures p.Prefix? ==>
      var head := f.ipNet(p.prefix) + " " + Bracketed(PrefixFlags(p.onLink, p.autonomous))
        + ", preferred: " + f.duration(p.preferredLifetime);
      |head| <= |s| && s[..|head|] == head
    ensures p.DNSSL? || p.RDNSS? ==> EndsWith(s, ", lifetime: " + f.duration(p.lifetime))
    ensures p.MTU? ==>
      && |s| > 5 && s[..5] == "MTU: "
      && (var n := s[5..]; (if n[0] == '-' then AllDigits(n[1..]) else AllDigits(n)) && ParseInt(n) == p.mtu)
    ensures p.Prefix? && p.validLifetime == Ndp.Infinity ==> EndsWith(s, ", valid: infinite")
    ensures p.Prefix? && p.validLifetime != Ndp.Infinity ==>
      EndsWith(s, ", valid: " + f.duration(p.validLifetime))
  {
    match p
    case DNSSL(lifetime, names) =>
      var tail := ", lifetime: " + f.duration(lifetime);
      EndsWithConcat("domain names: " + Bracketed(names), tail);
      "domain names: " + Bracketed(names) + tail
    case Prefix(prefix, onLink, autonomous, preferred, valid, _) =>
      var head := f.ipNet(prefix) + " " + Bracketed(PrefixFlags(onLink, autonomous))
        + ", preferred: " + f.duration(preferred);
      var tail := if valid == Ndp.Infinity then ", valid: infinite" else ", valid: " + f.duration(valid);
      EndsWithConcat(head, tail);
      assert (head + tail)[..|head|] == head;
      head + tail
    case MTU(m) =>
      var s := "MTU: " + Decimal(m);
      assert s[5..] == Decimal(m);
      s
    case RDNSS(lifetime, servers) =>
      var head := "servers: " + Bracketed(ServerStrings(servers, f));
      var tail := ", lifetime: " + f.duration(lifetime);
      EndsWithConcat(head, tail);
      head + tail
  }

  predicate EndsWith(s: string, suffix: string) {
    |suffix| <= |s| && s[|s| - |suffix|..] == suffix
  }

  lemma EndsWithConcat(head: string, tail: string)
    ensures EndsWith(head + tail, tail)
  {
    assert (head + tail)[|head|..] == tail;
  }

  /** The flag list shows `on-link` and `autonomous` exactly when set, in that order. */
  lemma PrefixFlagsRendering(onLink: bool, autonomous: bool)
    ensures Bracketed(PrefixFlags(onLink, autonomous)) ==
      if onLink && autonomous then "[on-link, autonomous]"
      else if onLink then "[on-link]"
      else if autonomous then "[autonomous]"
      else "[]"
  {
    if onLink && autonomous {
      assert PrefixFlags(onLink, autonomous) == ["on-link", "autonomous"];
      JoinTwo("on-link", "autonomous", ", ");
      BothFlagsText();
    } else if onLink {
      assert PrefixFlags(onLink, autonomous) == ["on-link"];
      assert "[" + "on-link" == "[on-link";
      assert "[on-link" + "]" == "[on-link]";
    } else if autonomous {
      assert PrefixFlags(onLink, autonomous) == ["autonomous"];
      assert "[" + "autonomous" == "[autonomous";
      assert "[autonomous" + "]" == "[autonomous]";
    } else {
      assert PrefixFlags(onLink, autonomous) == [];
      assert "[" + "" + "]" == "[]";
    }
  }

  lemma BothFlagsText()
    ensures "[" + ("on-link" + ", " + "autonomous") + "]" == "[on-link, autonomous]"
  {
  }

  /** Two items join around the separator. */
  lemma JoinTwo(a: string, b: string, sep: string)
    ensures Join([a, b], sep) == a + sep + b
  {
    assert [a, b][1..] == [b];
  }

  /** Joining two non-empty lists is joining each and putting the separator
      between them: every item is followed by the separator except the last. */
  lemma {:induction false} JoinConcat(xs: seq<string>, ys: seq<string>, sep: string)
    requires |xs| > 0 && |ys| > 0
    ensures Join(xs + ys, sep) == Join(xs, sep) + sep + Join(ys, sep)
  {
    if |xs| == 1 {
      assert (xs + ys)[0] == xs[0] && (xs + ys)[1..] == ys;
    } else {
      assert (xs + ys)[0] == xs[0] && (xs + ys)[1..] == xs[1..] + ys;
      JoinConcat(xs[1..], ys, sep);
    }
  }
}

=== FILE: tasks.dfy ===
/**
  The server's task builder (`Server.BuildTasks`) and task descriptions
  (`Task.String`): a configuration maps to an ordered list of tasks, one
  monitor and/or advertiser per configured interface, then the debug HTTP
  server when it has an address, then the link state watcher.
*/
module Tasks {
  import Plugins

  /** One configured interface (`config.Interface`). */
  datatype Interface = Interface(
    name: string,
    monitor: bool,
    advertise: bool,
    plugins: seq<Plugins.Plugin>)

  /** A validated configuration (`config.Config`): the interfaces in
      configuration order and the debug listener address, empty when unset. */
  datatype Config = Config(interfaces: seq<Interface>, debugAddress: string)

  /** Kinds of task, with what their descriptions and runs depend on. */
  datatype Task =
    | MonitorTask(iface: string)
    | AdvertiserTask(iface: string, plugins: seq<Plugins.Plugin>)
    | HTTPTask(addr: string)
    | WatcherTask

  /** Which of the two tasks comes first for an interface that both monitors
      and advertises. */
  datatype BothOrder = MonitorFirst | AdvertiserFirst

  function Flag(b: bool): nat {
    if b then 1 else 0
  }

  /** Tasks for one interface: a monitor when `monitor` is set, an
      advertiser carrying the interface's plugins when `advertise` is set. */
  function InterfaceTasksOf(ifi: Interface, order: BothOrder): (r: seq<Task>)
    ensures |r| == Flag(ifi.monitor) + Flag(ifi.advertise)
    ensures forall t <- r ::
      || (t == MonitorTask(ifi.name) && ifi.monitor)
      || (t == AdvertiserTask(ifi.name, ifi.plugins) && ifi.advertise)
    ensures ifi.monitor ==> MonitorTask(ifi.name) in r
    ensures ifi.advertise ==> AdvertiserTask(ifi.name, ifi.plugins) in r
  {
    var m := if ifi.monitor then [MonitorTask(ifi.name)] else [];
    var a := if ifi.advertise then [AdvertiserTask(ifi.name, ifi.plugins)] else [];
    if order == MonitorFirst then m + a else a + m
  }

  /** The interface tasks of a configuration, interface by interface: one
      task per monitor flag and per advertise flag, and only ever monitors
      and advertisers. */
  function InterfaceTasks(ifaces: seq<Interface>, order: BothOrder): (r: seq<Task>)
    ensures |r| == Monitors(ifaces) + Advertisers(ifaces)
    ensures forall i :: 0 <= i < |r| ==> r[i].MonitorTask? || r[i].AdvertiserTask?
  {
    if ifaces == [] then []
    else
      var head, rest := InterfaceTasksOf(ifaces[0], order), InterfaceTasks(ifaces[1..], order);
      assert forall i :: 0 <= i < |head| ==> (head + rest)[i] == head[i] && head[i] in head;
      assert forall i :: |head| <= i < |head + rest| ==> (head + rest)[i] == rest[i - |head|];
      head + rest
  }

  /** The number of interfaces with the monitor flag set. */
  function Monitors(ifaces: seq<Interface>): nat {
    if ifaces == [] then 0 else Flag(ifaces[0].monitor) + Monitors(ifaces[1..])
  }

  /** The number of interfaces with the advertise flag set. */
  function Advertisers(ifaces: seq<Interface>): nat {
    if ifaces == [] then 0 else Flag(ifaces[0].advertise) + Advertisers(ifaces[1..])
  }

  /** `Server.BuildTasks`: never fails; the interface tasks come first, in
      configuration order; the watcher is last and appears once, and the debug server, present exactly when it has an address, sits
      immediately before it. */
  function BuildTasks(cfg: Config, order: BothOrder): (r: seq<Task>)
    ensures |InterfaceTasks(cfg.interfaces, order)| <= |r|
    ensures r[..|InterfaceTasks(cfg.interfaces, order)|] == InterfaceTasks(cfg.interfaces, order)
    ensures |r| >= 1 && r[|r| - 1] == WatcherTask
    ensures forall i :: 0 <= i < |r| - 1 ==> !r[i].WatcherTask?
    ensures cfg.debugAddress != "" <==> |r| >= 2 && r[|r| - 2] == HTTPTask(cfg.debugAddress)
    ensures forall i :: 0 <= i < |r| && r[i].HTTPTask? ==>
      i == |r| - 2 && r[i].addr == cfg.debugAddress
  {
    var ifaceTasks := InterfaceTasks(cfg.interfaces, order);
    var debug := if cfg.debugAddress != "" then [HTTPTask(cfg.debugAddress)] else [];
    var r := ifaceTasks + debug + [WatcherTask];
    assert forall i :: 0 <= i < |ifaceTasks| ==> r[i] == ifaceTasks[i];
    assert forall i :: 0 <= i < |ifaceTasks| ==> r[i].MonitorTask? || r[i].AdvertiserTask?;
    assert forall i :: |ifaceTasks| <= i < |r| - 1 ==> r[i] == HTTPTask(cfg.debugAddress);
    r
  }

  /** Building over consecutive interface lists is building over each in turn. */
  lemma {:induction false} InterfaceTasksConcat(a: seq<Interface>, b: seq<Interface>, order: BothOrder)
    ensures InterfaceTasks(a + b, order) == InterfaceTasks(a, order) + InterfaceTasks(b, order)
  {
    if a == [] {
      assert a + b == b;
    } else {
      assert (a + b)[1..] == a[1..] + b;
      InterfaceTasksConcat(a[1..], b, order);
    }
  }

  /** The number of tasks is the number of monitor flags, plus the number of
      advertise flags, plus one for a debug address, plus one for the watcher. */
  lemma TaskCount(cfg: Config, order: BothOrder)
    ensures |BuildTasks(cfg, order)| ==
      Monitors(cfg.interfaces) + Advertisers(cfg.interfaces) + Flag(cfg.debugAddress != "") + 1
  {
  }

  /** There is a monitor task for a name exactly when some interface of that
      name has the monitor flag set. */
  lemma {:induction false} MonitorTaskIff(ifaces: seq<Interface>, order: BothOrder, name: string)
    ensures MonitorTask(name) in InterfaceTasks(ifaces, order) <==>
      exists i :: 0 <= i < |ifaces| && ifaces[i].name == name && ifaces[i].monitor
  {
    if ifaces != [] {
      MonitorTaskIff(ifaces[1..], order, name);
      if exists i :: 0 <= i < |ifaces| && ifaces[i].name == name && ifaces[i].monitor {
        var i :| 0 <= i < |ifaces| && ifaces[i].name == name && ifaces[i].monitor;
        if i > 0 {
          assert ifaces[1..][i - 1] == ifaces[i];
        }
      }
      if exists i :: 0 <= i < |ifaces[1..]| && ifaces[1..][i].name == name && ifaces[1..][i].monitor {
        var i :| 0 <= i < |ifaces[1..]| && ifaces[1..][i].name == name && ifaces[1..][i].monitor;
        assert ifaces[i + 1] == ifaces[1..][i];
      }
    }
  }

  /** There is an advertiser task for a name and plugin list exactly when some
      interface of that name and plugin list has the advertise flag set. */
  lemma {:induction false} AdvertiserTaskIff(
    ifaces: seq<Interface>, order: BothOrder, name: string, plugins: seq<Plugins.Plugin>)
    ensures AdvertiserTask(name, plugins) in InterfaceTasks(ifaces, order) <==>
      exists i :: 0 <= i < |ifaces| && ifaces[i].name == name && ifaces[i].plugins == plugins
        && ifaces[i].advertise
  {
    if ifaces != [] {
      AdvertiserTaskIff(ifaces[1..], order, name, plugins);
      if exists i :: (0 <= i < |ifaces| && ifaces[i].name == name && ifaces[i].plugins == plugins
        && ifaces[i].advertise)
      {
        var i :| 0 <= i < |ifaces| && ifaces[i].name == name && ifaces[i].plugins == plugins
          && ifaces[i].advertise;
        if i > 0 {
          assert ifaces[1..][i - 1] == ifaces[i];
        }
      }
      if exists i :: (0 <= i < |ifaces[1..]| && ifaces[1..][i].name == name
        && ifaces[1..][i].plugins == plugins && ifaces[1..][i].advertise)
      {
        var i :| 0 <= i < |ifaces[1..]| && ifaces[1..][i].name == name
          && ifaces[1..][i].plugins == plugins && ifaces[1..][i].advertise;
        assert ifaces[i + 1] == ifaces[1..][i];
      }
    }
  }

  /** The monitor and advertiser tasks of the built list are exactly those
      the interfaces ask for: the debug server and watcher add none. */
  lemma BuildTasksInterfaces(cfg: Config, order: BothOrder, name: string, plugins: seq<Plugins.Plugin>)
    ensures MonitorTask(name) in BuildTasks(cfg, order) <==>
      exists i :: 0 <= i < |cfg.interfaces| && cfg.interfaces[i].name == name && cfg.interfaces[i].monitor
    ensures AdvertiserTask(name, plugins) in BuildTasks(cfg, order) <==>
      exists i :: (0 <= i < |cfg.interfaces| && cfg.interfaces[i].name == name
        && cfg.interfaces[i].plugins == plugins && cfg.interfaces[i].advertise)
  {
    MonitorTaskIff(cfg.interfaces, order, name);
    AdvertiserTaskIff(cfg.interfaces, order, name, plugins);
    var ifaceTasks := InterfaceTasks(cfg.interfaces, order);
    var tail := (if cfg.debugAddress != "" then [HTTPTask(cfg.debugAddress)] else []) + [WatcherTask];
    assert BuildTasks(cfg, order) == ifaceTasks + tail;
    assert MonitorTask(name) !in tail;
    assert AdvertiserTask(name, plugins) !in tail;
  }

  /** Tasks of earlier interfaces come before those of later ones: an
      interface's tasks sit between those of the interfaces before and after it. */
  lemma InterfaceOrder(before: seq<Interface>, ifi: Interface, after: seq<Interface>, order: BothOrder)
    ensures InterfaceTasks(before + [ifi] + after, order) ==
      InterfaceTasks(before, order) + InterfaceTasksOf(ifi, order) + InterfaceTasks(after, order)
  {
    InterfaceTasksConcat(before + [ifi], after, order);
    InterfaceTasksConcat(before, [ifi], order);
    assert InterfaceTasks([ifi], order) == InterfaceTasksOf(ifi, order) by {
      assert [ifi][1..] == [];
    }
  }

  /** An interface with neither flag set contributes no task: removing it
      from anywhere in the configuration leaves the built list unchanged. */
  lemma IdleInterfaceIgnored(a: seq<Interface>, idle: Interface, b: seq<Interface>, order: BothOrder)
    requires !idle.monitor && !idle.advertise
    ensures InterfaceTasks(a + [idle] + b, order) == InterfaceTasks(a + b, order)
  {
    InterfaceOrder(a, idle, b, order);
    InterfaceTasksConcat(a, b, order);
  }

  /** For an interface that both monitors and advertises, `MonitorFirst`
      puts its monitor first and `AdvertiserFirst` its advertiser. */
  lemma BothFlagsOrder(ifi: Interface)
    requires ifi.monitor && ifi.advertise
    ensures InterfaceTasksOf(ifi, MonitorFirst) == [MonitorTask(ifi.name), AdvertiserTask(ifi.name, ifi.plugins)]
    ensures InterfaceTasksOf(ifi, AdvertiserFirst) == [AdvertiserTask(ifi.name, ifi.plugins), MonitorTask(ifi.name)]
  {
  }

  /** When no interface sets both flags, the order parameter does not matter. */
  lemma {:induction false} OrderIrrelevant(ifaces: seq<Interface>)
    requires forall i :: 0 <= i < |ifaces| ==> !(ifaces[i].monitor && ifaces[i].advertise)
    ensures InterfaceTasks(ifaces, MonitorFirst) == InterfaceTasks(ifaces, AdvertiserFirst)
  {
    if ifaces != [] {
      assert !(ifaces[0].monitor && ifaces[0].advertise);
      assert forall i :: 0 <= i < |ifaces[1..]| ==> ifaces[1..][i] == ifaces[i + 1];
      OrderIrrelevant(ifaces[1..]);
    }
  }

  /** `%q` of an interface name or address: the text between double quotes. */
  function Quote(s: string): (r: string)
    ensures |r| == |s| + 2 && r[0] == '"' && r[|r| - 1] == '"' && r[1..|r| - 1] == s
  {
    "\"" + s + "\""
  }

  /** `Task.String`. A description reads back as its task's kind and quoted
      subject, so tasks of different kinds, or of one kind with different
      interface names or addresses, are described differently. */
  function TaskString(t: Task): (s: string)
    ensures ParseDescription(s) == Some(Described(KindOf(t), SubjectOf(t)))
  {
    match t
    case MonitorTask(name) =>
      var s := "monitor " + Quote(name);
      QuotedAfterQuote("monitor ", name);
      assert s != "link state watcher" by { assert s[0] == 'm' && "link state watcher"[0] == 'l'; }
      s
    case AdvertiserTask(name, _) =>
      var s := "advertiser " + Quote(name);
      QuotedAfterQuote("advertiser ", name);
      assert s[0] == 'a';
      assert s != "link state watcher" by { assert "link state watcher"[0] == 'l'; }
      assert !StartsWith(s, "monitor ") by { assert "monitor "[0] == 'm'; }
      s
    case HTTPTask(addr) =>
      var s := "debug HTTP server " + Quote(addr);
      QuotedAfterQuote("debug HTTP server ", addr);
      assert s[0] == 'd';
      assert s != "link state watcher" by { assert "link state watcher"[0] == 'l'; }
      assert !StartsWith(s, "monitor ") by { assert "monitor "[0] == 'm'; }
      assert !StartsWith(s, "advertiser ") by { assert "advertiser "[0] == 'a'; }
      s
    case WatcherTask => "link state watcher"
  }

  /** The descriptions of a task list, in order. */
  function TaskStrings(ts: seq<Task>): (r: seq<string>)
    ensures |r| == |ts|
    ensures forall i :: 0 <= i < |ts| ==> r[i] == TaskString(ts[i])
  {
    if ts == [] then [] else [TaskString(ts[0])] + TaskStrings(ts[1..])
  }

  /** The kind of task a description names. */
  datatype Kind = Monitor | Advertiser | DebugHTTP | Watcher

  function KindOf(t: Task): Kind {
    match t
    case MonitorTask(_) => Monitor
    case AdvertiserTask(_, _) => Advertiser
    case HTTPTask(_) => DebugHTTP
    case WatcherTask => Watcher
  }

  /** The interface name or address a description quotes, if any. */
  function SubjectOf(t: Task): string {
    match t
    case MonitorTask(name) => name
    case AdvertiserTask(name, _) => name
    case HTTPTask(addr) => addr
    case WatcherTask => ""
  }

  datatype Described = Described(kind: Kind, subject: string)

  datatype Maybe<T> = None | Some(value: T)

  function StartsWith(s: string, prefix: string): bool {
    |prefix| <= |s| && s[..|prefix|] == prefix
  }

  /** The quoted text after `prefix`, when `s` is `prefix` then a quoted string. */
  function QuotedAfter(s: string, prefix: string): Maybe<string> {
    if StartsWith(s, prefix) && |s| >= |prefix| + 2 && s[|prefix|] == '"' && s[|s| - 1] == '"'
    then Some(s[|prefix| + 1..|s| - 1])
    else None
  }

  /** Reads a description back into its kind and subject. */
  function ParseDescription(s: string): Maybe<Described> {
    if s == "link state watcher" then Some(Described(Watcher, ""))
    else if QuotedAfter(s, "monitor ").Some? then Some(Described(Monitor, QuotedAfter(s, "monitor ").value))
    else if QuotedAfter(s, "advertiser ").Some? then Some(Described(Advertiser, QuotedAfter(s, "advertiser ").value))
    else if QuotedAfter(s, "debug HTTP server ").Some? then
      Some(Described(DebugHTTP, QuotedAfter(s, "debug HTTP server ").value))
    else None
  }

  lemma QuotedAfterQuote(prefix: string, subject: string)
    ensures QuotedAfter(prefix + Quote(subject), prefix) == Some(subject)
  {
    var s := prefix + Quote(subject);
    assert s[..|prefix|] == prefix;
    assert s[|prefix|..] == Quote(subject);
    assert s[|prefix| + 1..|s| - 1] == Quote(subject)[1..|subject| + 1];
  }
}

=== FILE: tasks_tests.dfy ===
/**
  The `TestServerBuildTasks` cases, each stated as a lemma: the descriptions
  of the built tasks are the test's expected strings, whichever order is
  chosen for interfaces with both flags (none of the tested ones has both).
*/
module TaskTests {
  import Plugins
  import opened Tasks

  const DebugAddress: string := ":9430"

  /** `%q` of the test's names and address. */
  lemma QuotedNames()
    ensures Quote("eth0") == "\"eth0\""
    ensures Quote("eth1") == "\"eth1\""
    ensures Quote(":9430") == "\":9430\""
  {
  }

  /** The descriptions of the test's tasks. */
  lemma Descriptions(plugins: seq<Plugins.Plugin>)
    ensures TaskString(MonitorTask("eth0")) == "monitor \"eth0\""
    ensures TaskString(AdvertiserTask("eth1", plugins)) == "advertiser \"eth1\""
    ensures TaskString(HTTPTask(":9430")) == "debug HTTP server \":9430\""
  {
    QuotedNames();
    assert "monitor " + "\"eth0\"" == "monitor \"eth0\"";
    assert "advertiser " + "\"eth1\"" == "advertiser \"eth1\"";
    assert "debug HTTP server " + "\":9430\"" == "debug HTTP server \":9430\"";
  }

  /** "empty config": the watcher alone. */
  lemma EmptyConfig(order: BothOrder)
    ensures TaskStrings(BuildTasks(Config([], ""), order)) == ["link state watcher"]
  {
    assert BuildTasks(Config([], ""), order) == [WatcherTask];
  }

  /** "debug HTTP": the debug server, then the watcher. */
  lemma DebugHTTP(order: BothOrder)
    ensures TaskStrings(BuildTasks(Config([], DebugAddress), order))
      == ["debug HTTP server \":9430\"", "link state watcher"]
  {
    Descriptions([]);
    assert BuildTasks(Config([], DebugAddress), order) == [HTTPTask(DebugAddress), WatcherTask];
  }

  /** The "full" configuration: eth0 monitors, eth1 advertises, eth2 is not configured. */
  function FullConfig(): Config {
    Config([
      Interface("eth0", true, false, []),
      Interface("eth1", false, true, []),
      Interface("eth2", false, false, [])], DebugAddress)
  }

  /** The interface tasks of the full configuration: eth2 gives none. */
  lemma FullInterfaceTasks(order: BothOrder)
    ensures InterfaceTasks(FullConfig().interfaces, order) == [MonitorTask("eth0"), AdvertiserTask("eth1", [])]
  {
    var ifaces := FullConfig().interfaces;
    assert ifaces[1..][1..][1..] == [];
    assert InterfaceTasks(ifaces[1..][1..], order) == [];
    assert InterfaceTasks(ifaces[1..], order) == [AdvertiserTask("eth1", [])];
  }

  /** The tasks built from the full configuration. */
  lemma FullTasks(order: BothOrder)
    ensures BuildTasks(FullConfig(), order)
      == [MonitorTask("eth0"), AdvertiserTask("eth1", []), HTTPTask(DebugAddress), WatcherTask]
  {
    FullInterfaceTasks(order);
  }

  /** "full": monitor eth0, advertiser eth1, nothing for eth2, then the debug
      server and the watcher. */
  lemma Full(order: BothOrder)
    ensures TaskStrings(BuildTasks(FullConfig(), order)) == [
      "monitor \"eth0\"",
      "advertiser \"eth1\"",
      "debug HTTP server \":9430\"",
      "link state watcher"]
  {
    Descriptions([]);
    FullTasks(order);
  }
}

=== FILE: wrappers.dfy ===
/** Success/failure results, standing in for Go's `(value, error)` returns. */
module Wrappers {

  datatype Result<+T, +E> = Ok(value: T) | Err(error: E)
}
